=== FILE: README.md ===
# Legal citation hallucination detector — verified model of its core

This project models the deterministic core of a detector for fabricated legal citations. The detector works in three steps:

- It extracts case citations from a document.
- It checks each one against the CourtListener case-law database, memoising the answers in an on-disk cache.
- It lets the verification results override the language model's verdict whenever a citation cannot be found.

The model is written in Dafny, and the verifier proves every property listed below for all inputs.

The model is functional throughout:
- **Database.** A value of type `Verification.Database` with two total functions. `lookup` models the citation-lookup endpoint; `search` maps a query and a page size to the search endpoint's result list. A transport failure or a non-200 status is the empty list.
- **Cache.** A `map<string, Verification>` threaded through every call. Each call also returns the queries it sent, so "no query was made" is a provable statement.
- **Language model.** Its answer enters as a `Synthesis.Reply`. It is either a failure or the reply text together with what the detector's regular expressions read from it: a confidence, a risk level and a recommendation.

Modules, one per file:

| file | module | models |
|---|---|---|
| maybe.dfy | `Maybe` | optional values (`None` and absent dictionary keys) |
| strings.dfy | `Strings` | `lower`, `strip`, `rstrip`, `replace(" ", "")`, `in` on strings, `str(n)` and `int(s)` on digits |
| seqs.dfy | `Seqs` | first element satisfying a predicate; leftmost match of an anchored matcher |
| merge.dfy | `Merge` | the "append unless a record with that key is present" loops of `extract_citations` |
| extraction.dfy | `Extraction` | `extract_citations`, given the capture groups of each pattern's matches |
| patterns.dfy | `Patterns` | hand-written scanners for the two regular expressions of `_citation_matches` and the one of `_names_match`, with `re.search` semantics |
| verification.dfy | `Verification` | `verify_citation`, `verify_case_name`, `_citation_matches`, `_names_match` |
| scan.dfy | `Scan` | `enhanced_scan_with_rag` and `verify_citations_with_rag` |
| synthesis.dfy | `Synthesis` | the short-circuit of `stage2_hallucination_analysis` and the override of `stage3_final_synthesis` |
| pipeline.dfy | `Pipeline` | the flow from extracted records through the scan to both stages |

How the code behaves where a reader might expect otherwise:
- **Verdict when nothing is unverified.** No penalty applies when every citation is verified or when there are no citations at all. The model's risk (or `unknown`) and the model's confidence (or 50) pass through unchanged.
- **Recommendation.** The imposed recommendation names the number of unverified citations, not the citations themselves.
- **Dedup key.** Deduplication compares the exact `content` and `case_name` strings, with no case or whitespace folding.
- **Output order.** Records are ordered by pattern family: full citations, then standalone citations, then bare names. Within a family they follow match order.
- **Length filter.** The five-character noise filter is applied in the scan, not in the extractor.
- **Scope of the detector.** The detector has no statute or rule patterns, no tolerant JSON decoder and no rate limiter.
- **Name search.** A query with a "p1 v p2" shape matches a result name when both party tokens occur in it. A query without that shape matches when the whole query occurs in the result name.
- **Cache keys.** A citation is keyed by its bare text and a case name by `"name:" + name`. The two key spaces therefore overlap: `Verification.NameSlotAnswersCitation` shows that the citation text `"name:X"` is answered from the slot of case name `X`.

## Model

| member | source | states |
|---|---|---|
| Strings.RemoveSpaces | detector.py:50 | the reporter loses exactly its spaces: no space remains, every other character keeps its multiplicity, and a string without spaces is unchanged |
| Strings.RemoveSpacesAppend | detector.py:50 | removing spaces distributes over concatenation, so the characters that remain keep their order |
| Strings.Strip | detector.py:47-48 | `strip()` returns a contiguous slice of its input with only whitespace cut away on either side, and the slice neither starts nor ends with whitespace |
| Strings.TrimEnd | detector.py:48 | `rstrip(",")` keeps a prefix of its input, drops only commas, and the kept part does not end in a comma |
| Strings.Lower | legal_rag.py:187-188 | `lower()` keeps the length, maps each character by itself (ASCII capitals to their small letters, all else unchanged) and leaves no ASCII capital behind |
| Strings.ContainsIffOccurs | legal_rag.py:154 | the substring test `in` holds exactly when the needle occurs at some offset of the haystack |
| Strings.NatToString | detector.py:294 | the decimal rendering of a count is non-empty, all digits, and has no leading zero unless it is "0" |
| Strings.NatToStringRoundTrip | detector.py:294 | reading the decimal rendering of a count back gives the count |
| Extraction.FromFull | detector.py:47-67 | a full-citation record has content "volume reporter page" with a space-free reporter and case name "plaintiff v. defendant"; the plaintiff is the stripped first group and has no surrounding whitespace; the defendant is the stripped second group with trailing commas removed, so it starts with a non-space and does not end in a comma (whitespace before a removed comma can remain); the court year is the sixth group or empty |
| Extraction.FromStandalone | detector.py:74-90 | a standalone record has content "volume reporter page" with the spaces of the reporter removed |
| Extraction.FromName | detector.py:95-104 | a name record's content and case name are both "plaintiff v. defendant", with stripped parties |
| Extraction.Extract | detector.py:39-106 | full records come first and are kept as they are, standalone records come next and name records last; every record is well-shaped; the list only grows |
| Extraction.StandaloneContentsFresh | detector.py:79-80 | a standalone record's content differs from that of every earlier record |
| Extraction.NameRecordsFresh | detector.py:97-98 | a name record's case name differs from every earlier record's; a standalone record (case name `None`) never blocks one |
| Extraction.StandaloneMatchesCovered | detector.py:73-90 | every standalone match is represented by some record with its content |
| Extraction.NameMatchesCovered | detector.py:94-104 | every name match is represented by some record with its case name |
| Extraction.ExtractIsFirstSeen | detector.py:41-106 | the extracted list is the full records, then the first-seen standalone records, then the first-seen name records, each in match order |
| Extraction.ExtractOrigin | detector.py:46-104 | no record is invented: each one is built from a match of its own pattern family |
| Merge.AppendUnseen | detector.py:79-90 | the dedup loop keeps the accumulated list as a prefix, appends only candidates, never more than there are, and no appended element shares a key with any element before it |
| Merge.AppendUnseenIsFirstSeen | detector.py:79-90 | the dedup loop appends exactly the elements that are first of their key, in order, and never removes or reorders earlier ones |
| Merge.AppendUnseenKeys | detector.py:97-104 | after a dedup loop the keys present are exactly those present before plus those of the candidates |
| Patterns.FederalSearch | legal_rag.py:148-151 | the reporter pattern's result is the match at the leftmost offset where it matches, and there is none exactly when no offset matches |
| Patterns.FederalSearchOccurs | legal_rag.py:148-153 | the volume and page the reporter pattern yields both occur in the searched text |
| Patterns.FederalFindsCitation | legal_rag.py:148-153 | on "volume reporter page" whose reporter is one the extractor produces when the only whitespace inside it was spaces, the reporter pattern yields that volume and page |
| Patterns.PartySearch | legal_rag.py:158 | the party pattern's result is the match at the leftmost offset where it matches, and there is none exactly when no offset matches |
| Patterns.PartySearchOccurs | legal_rag.py:158-160 | the two parties the party pattern yields both occur in the searched text |
| Patterns.PartyFindsNames | legal_rag.py:158-160 | on "p1 v. p2" or "p1 v p2" with lower-case parties, the party pattern yields the two parties |
| Patterns.NoPartyWithoutV | legal_rag.py:158-159 | text without the letter "v" has no party match |
| Patterns.NoFederalWithoutDigits | legal_rag.py:148-152 | text without a digit has no reporter match |
| Verification.CitationMatchesByVolumeAndPage | legal_rag.py:142-165 | a "volume reporter page" citation matches a result exactly when both volume and page occur in the lower-cased serialised result |
| Verification.CitationMatchesByParties | legal_rag.py:144-165 | a digit-free citation, in any letter case, whose lower-cased form is "p1 v. p2" with parties longer than two letters matches exactly when both lower-cased parties occur in the lower-cased serialised result |
| Verification.NamesMatchByParties | legal_rag.py:202-207 | a "p1 v. p2" query with parties of at least three letters matches a result name exactly when both parties occur in it |
| Verification.CitationMatchesNeedsEvidence | legal_rag.py:142-165 | a citation matches a result only on evidence: two non-empty digit strings (volume and page) or two words longer than two letters (the parties), each occurring in both the lower-cased citation and the lower-cased serialised result |
| Verification.CitationMatchesWhole | legal_rag.py:142-165 | a citation that occurs whole in the lower-cased serialised result matches it, whenever the reporter pattern or the party pattern with parties longer than two letters finds something in it |
| Verification.NamesMatchNeedsEvidence | legal_rag.py:202-208 | a name query matches a result name only if the whole query occurs in it or two words of at least three letters occur in both |
| Verification.NamesMatchContained | legal_rag.py:202-208 | a result name that contains the whole query always matches it, whichever branch decides |
| Verification.NamesMatchWhole | legal_rag.py:202-208 | a query without "v" matches a result name exactly when it occurs in it whole |
| Verification.CitationSearch | legal_rag.py:121-137 | the quoted search runs first and the plain search only when it returns nothing; the first result of the last search that matches is accepted with confidence 80 and method search; if none matches, the record is unverified with null details |
| Verification.CitationLadder | legal_rag.py:93-140 | a non-empty exact lookup is accepted with confidence 90 and method citation-lookup, and no search is sent; otherwise the searches decide; the record is always well-formed |
| Verification.NameLadder | legal_rag.py:175-199 | one search for the name with page size 10; verified exactly when some result name matches; the first match is accepted with confidence 85 and its citation list |
| Verification.Memo | legal_rag.py:85-91 | a cached key returns its record unchanged with no query; otherwise the fresh record is written under the key; no other entry changes |
| Verification.VerifyCitation | legal_rag.py:80-140 | a cache hit returns the stored record and makes no query; a miss returns the record and the queries of the lookup-then-search ladder (`Verification.CitationLadder`), starting with the exact lookup, and caches that record |
| Verification.VerifyCaseName | legal_rag.py:167-200 | the same memoisation under the key "name:" + name; a miss returns the record and the single search of the name search (`Verification.NameLadder`) |
| Verification.VerifyCitationIdempotent | legal_rag.py:85-140 | a second call returns the identical record, keeps the cache and sends no query, whatever the database answers |
| Verification.VerifyCaseNameIdempotent | legal_rag.py:169-200 | the same for case names |
| Verification.NameSlotAnswersCitation | legal_rag.py:169-173 | once a name has been checked, the citation "name:" + that name is answered from the name's slot without a query |
| Verification.CitationSlotsDistinct | legal_rag.py:85-91 | any citation not beginning with "name:" has a cache slot of its own |
| Scan.Check | legal_rag.py:233-238 | type "case_name" goes to the name check and every other type to the citation check; a cached slot answers without a query; a miss returns the record and queries of the name search or of the citation ladder for the item's content, and caches it |
| Scan.Record | legal_rag.py:240-260 | a verified record adds one verified entry carrying its content, type, confidence, case name, court, filing date and method; any other adds one unverified entry with the not-found reason; earlier entries are kept; one context line each |
| Scan.ScanItems | legal_rag.py:224-260 | every item of at least five characters lands in exactly one of the two lists (as a multiset of contents); the verified list holds, in item order, exactly the contents of the checked items whose slot is verified, and the unverified list those whose slot is not; the cache gains exactly those items' slots, each new slot holding the record the database gives that item on a miss (name search or citation ladder), and keeps every earlier entry |
| Scan.ReplaySorts | legal_rag.py:240-260 | replaying checked items against a cache that holds all their slots lists, in order, exactly the verified-slot items as verified and the rest as unverified |
| Scan.ScanReadsFinalCache | legal_rag.py:224-238 | every entry of a scan is the one the final cache holds for its item |
| Scan.ScanWarmCache | legal_rag.py:228-238 | with every slot already cached, a scan sends no query and leaves the cache unchanged |
| Scan.ScanRepeat | legal_rag.py:211-260 | rescanning the same items against any database reproduces the report without a query |
| Scan.Rate | legal_rag.py:267 | the rate times max(total, 1) is 100 times the verified count; it lies in [0, 100], is 0 exactly when nothing was verified and 100 exactly when something was verified and nothing failed |
| Scan.Summarize | legal_rag.py:262-268 | the lists are passed through, the total checked is the number of verified plus unverified entries, and the rate is `Scan.Rate` of the two counts |
| Scan.Examined | legal_rag.py:222-224 | the examined items are all of them when there are at most fifteen, and exactly the first fifteen otherwise |
| Scan.EnhancedScan | legal_rag.py:211-268 | each examined item of at least five characters lands in exactly one of the two lists (as a multiset of contents), and the verified and unverified lists are, in order, the checked items whose cache slot is verified or not; every unverified entry gives the not-found reason and the rate is `Scan.Rate` of the two list lengths; the total checked is the number of such items, never above fifteen; the cache gains exactly their slots, each new one holding the record the database gives that item, and keeps every earlier entry |
| Scan.ScanIgnoresPastLimit | legal_rag.py:222-224 | items after the fifteenth never affect the result |
| Scan.VerifyCitationsWithRag | detector.py:109-129 | an empty list is answered without a scan: no query, cache unchanged, rate 0; any other list gets the scan, with the same coverage, verdict order and database-given new slots as above |
| Synthesis.Stage2 | detector.py:184-232 | a hallucination is reported as false exactly when nothing is unverified, and as true exactly when something is and the model answered |
| Synthesis.Stage2ShortCircuit | detector.py:190-194 | with nothing unverified, the second stage's answer does not depend on the model |
| Synthesis.ForcedRisk | detector.py:241-249 | critical exactly when unverified outnumber verified, high when some but not most are unverified, low when none are |
| Synthesis.ConfidenceCap | detector.py:287-289 | the cap is at most 40 and is the verified percentage rounded down whenever that is below 40 |
| Synthesis.Stage3 | detector.py:234-314 | any unverified citation imposes the forced risk, a confidence of at most 40 and the do-not-rely recommendation; otherwise the model's values (or 50 and unknown) pass through; a failed call gives confidence 20 or 50 and the forced risk |
| Synthesis.OverrideIgnoresModel | detector.py:283-296 | with an unverified citation, any two model replies give the same risk, recommendation and hallucination flag |
| Synthesis.OverrideSeverity | detector.py:241-247 | with an unverified citation, the risk is high or critical even when the model call fails |
| Synthesis.NothingVerifiedNoConfidence | detector.py:286-289 | with nothing verified and something unverified, a successful synthesis has confidence 0 |
| Synthesis.StagesAgree | detector.py:303 | whenever the second stage reports on hallucination, it agrees with the third |
| Synthesis.DoNotRelyNamesCount | detector.py:293-294 | the imposed recommendation carries the number of unverified citations in decimal, and it reads back as that number |
| Pipeline.Stages | detector.py:190-194 | the third stage flags a hallucination exactly when some citation is unverified; the second reports none exactly when none is, and never flags one the third does not |
| Pipeline.Assess | detector.py:109-129 | the results are the scan of the given citations: each examined citation of at least five characters lands in exactly one list, a citation is listed as verified exactly when its cache slot is, each new slot is the record the database gives that citation, the rate is their verified share, and earlier cache entries are kept; the verdict flags a hallucination exactly when some citation is unverified; at most fifteen are checked |
| Pipeline.Analyze | detector.py:418-436 | the records are exactly those the extractor returns, and the results are their scan (the coverage, verdict order and database-given slots of `Pipeline.Assess`); the third stage flags a hallucination exactly when the scan left a citation unverified, the second reports none exactly when none is; at most fifteen are checked |
| Pipeline.AnalyzeKeepsEveryRecord | detector.py:418-419 | every extracted record has type "case" or "case_name", so the type filter keeps them all; there is at least one record per full match and at most one per match |
| Pipeline.NothingExtracted | detector.py:112-119 | a document without citations costs no query, leaves the cache unchanged and is reported without hallucination |
| Pipeline.ExtractedNeverSkipped | legal_rag.py:228-229 | the scan's five-character filter never drops a record the extractor built from non-empty capture groups |

## Left out

- The regular expressions of `extract_citations` are not modelled. Each pattern family's matches, with their capture groups in text order, are inputs. This includes the look-behind and look-ahead of the standalone pattern.
- The language model call (`run_ollama`) and the regular expressions that read CONFIDENCE, RISK and RECOMMENDATION from its reply are not modelled. The reply enters already parsed, or as a failure.
- The HTTP requests, their timeouts and status handling, and `get_cluster` are not modelled. The database is a pair of functions, and every failure is the empty list.
- The MD5 file names and the JSON files of the cache are not modelled. The cache is a map keyed by the text that is hashed, so hash collisions do not arise.
- `json.dumps` of a search result is an opaque string field of the record. `Verification.CitationMatches` lower-cases and searches it.
- `str.lower` covers ASCII letters only, and `\d` matches ASCII digits only. Unicode case mapping and non-ASCII digits are not modelled.
- `verification_rate` is an exact `real`, not an IEEE double. `Synthesis.ConfidenceCap` uses integer division. It agrees with `int(100 * v / (v + u))` because at most fifteen citations are checked, so the float quotient cannot round across an integer.
- The first stage, the prompt texts of the second and third stages, `format_report`, logging, printing, timing and the command-line entry points are not modelled. They only build text for the model or the user.
- Patterns.FederalFindsCitation: covers reporters whose internal whitespace was spaces only. The extractor's `\s*` also captures a tab, newline or no-break space, which `replace(" ", "")` keeps; such a reporter is outside `ReporterSpellings`. The reporter pattern of `_citation_matches` has `\s*` and `\s+` at the same places, so it matches such a citation as well; the lemma does not prove this case.
- Verification.CitationMatchesByParties: covers digit-free citations only. With a digit present, the reporter test runs first and the general predicate `Verification.CitationMatches` applies.
- Verification.NamesMatchByParties: covers queries whose first "v" match is the two parties. A query with an earlier short-party match is covered only by the general predicate `Verification.NamesMatch`.

=== FILE: extraction.dfy ===
/** Citation extraction (`extract_citations`): three pattern passes over the
    text, each appending records to one list.

    The regular expressions themselves are not modelled: each pass receives the
    capture groups of its matches, in text order, as they come out of
    `re.finditer`. What is modelled is how a match becomes a record (spaces
    removed from the reporter, party names stripped) and how the second and
    third passes skip matches whose key is already in the list. */
module Extraction {
  import opened Maybe
  import opened Strings
  import Merge

  /** Groups of one match of the full-citation pattern "Party v. Party, vol reporter page (court year)". */
  datatype FullMatch = FullMatch(
    plaintiff: string, defendant: string,
    volume: string, reporter: string, page: string,
    courtYear: Option<string>, text: string)

  /** Groups of one match of the standalone pattern "vol reporter page". */
  datatype StandaloneMatch = StandaloneMatch(volume: string, reporter: string, page: string, text: string)

  /** Groups of one match of the bare name pattern "Party v. Party". */
  datatype NameMatch = NameMatch(plaintiff: string, defendant: string, text: string)

  /** One extracted record; the three constructors are the three dictionary
      shapes the passes build. */
  datatype Citation =
    | FullCitation(
        content: string, caseName: string, plaintiff: string, defendant: string,
        volume: string, reporter: string, page: string, courtYear: string, original: string)
    | StandaloneCitation(content: string, volume: string, reporter: string, page: string, original: string)
    | NameCitation(content: string, caseName: string, original: string)
  {
    /** The record's `"type"` entry. */
    function Type(): (t: string)
      ensures t == "case" || t == "case_name"
      ensures t == "case_name" <==> NameCitation?
    {
      if NameCitation? then "case_name" else "case"
    }

    /** `c.get("case_name")`: standalone records hold `None`. */
    function CaseNameKey(): (k: Option<string>)
      ensures k.None? <==> StandaloneCitation?
    {
      if StandaloneCitation? then None else Some(caseName)
    }

    /** Position of the record's pass: full citations, then standalone, then names. */
    function Pass(): nat {
      match this
      case FullCitation(_, _, _, _, _, _, _, _, _) => 0
      case StandaloneCitation(_, _, _, _, _) => 1
      case NameCitation(_, _, _) => 2
    }
  }

  /** The record's shape promised by the passes: a reporter citation's content is
      "volume reporter page" with a space-free reporter, a full citation's case name
      joins the two parties with " v. ", and a name record's content is its case name. */
  predicate WellShaped(c: Citation) {
    match c
    case FullCitation(content, caseName, plaintiff, defendant, volume, reporter, page, _, _) =>
      && ' ' !in reporter
      && content == volume + " " + reporter + " " + page
      && caseName == plaintiff + " v. " + defendant
    case StandaloneCitation(content, volume, reporter, page, _) =>
      ' ' !in reporter && content == volume + " " + reporter + " " + page
    case NameCitation(content, caseName, _) =>
      content == caseName
  }

  function ContentKey(c: Citation): string {
    c.content
  }

  function CaseNameOf(c: Citation): Option<string> {
    c.CaseNameKey()
  }

  /** The character `rstrip(',')` removes. */
  predicate IsComma(c: char) {
    c == ','
  }

  /** The record built for one full-citation match. */
  function FromFull(m: FullMatch): (c: Citation)
    ensures c.FullCitation? && WellShaped(c)
    ensures c.volume == m.volume && c.page == m.page
    ensures c.reporter == RemoveSpaces(m.reporter)
    ensures c.original == m.text
    ensures c.plaintiff == Strip(m.plaintiff)
    ensures c.defendant == TrimEnd(Strip(m.defendant), IsComma)
    ensures m.courtYear.Some? ==> c.courtYear == m.courtYear.value
    ensures m.courtYear.None? ==> c.courtYear == ""
    ensures NoOuterSpace(c.plaintiff)
    ensures TrimmedDefendant(c.defendant)
  {
    var plaintiff := Strip(m.plaintiff);
    var defendant := TrimEnd(Strip(m.defendant), IsComma);
    DefendantShape(m.defendant);
    var reporter := RemoveSpaces(m.reporter);
    FullCitation(
      m.volume + " " + reporter + " " + m.page,
      plaintiff + " v. " + defendant,
      plaintiff, defendant, m.volume, reporter, m.page,
      m.courtYear.GetOr(""), m.text)
  }

  /** `d` starts with a non-space and does not end with a comma. */
  predicate TrimmedDefendant(d: string) {
    d != [] ==> !IsSpace(d[0]) && d[|d| - 1] != ','
  }

  /** The defendant group after `strip().rstrip(',')` is trimmed. */
  lemma DefendantShape(d: string)
    ensures TrimmedDefendant(TrimEnd(Strip(d), IsComma))
  {
    var s := Strip(d);
    var t := TrimEnd(s, IsComma);
    if t != [] {
      assert t[0] == s[0];
    }
  }

  /** The record built for one standalone match. */
  function FromStandalone(m: StandaloneMatch): (c: Citation)
    ensures c.StandaloneCitation? && WellShaped(c)
    ensures c.volume == m.volume && c.page == m.page
    ensures c.reporter == RemoveSpaces(m.reporter)
    ensures c.original == m.text
  {
    var reporter := RemoveSpaces(m.reporter);
    StandaloneCitation(m.volume + " " + reporter + " " + m.page, m.volume, reporter, m.page, m.text)
  }

  /** The record built for one bare-name match. */
  function FromName(m: NameMatch): (c: Citation)
    ensures c.NameCitation? && WellShaped(c)
    ensures c.caseName == Strip(m.plaintiff) + " v. " + Strip(m.defendant)
    ensures c.original == m.text
  {
    var name := Strip(m.plaintiff) + " v. " + Strip(m.defendant);
    NameCitation(name, name, m.text)
  }

  function FullRecords(ms: seq<FullMatch>): (cs: seq<Citation>)
    ensures |cs| == |ms|
    ensures forall i :: 0 <= i < |ms| ==> cs[i] == FromFull(ms[i])
    ensures forall c :: c in cs ==> c.FullCitation? && WellShaped(c)
  {
    seq(|ms|, i requires 0 <= i < |ms| => FromFull(ms[i]))
  }

  function StandaloneRecords(ms: seq<StandaloneMatch>): (cs: seq<Citation>)
    ensures |cs| == |ms|
    ensures forall i :: 0 <= i < |ms| ==> cs[i] == FromStandalone(ms[i])
    ensures forall c :: c in cs ==> c.StandaloneCitation? && WellShaped(c)
  {
    seq(|ms|, i requires 0 <= i < |ms| => FromStandalone(ms[i]))
  }

  function NameRecords(ms: seq<NameMatch>): (cs: seq<Citation>)
    ensures |cs| == |ms|
    ensures forall i :: 0 <= i < |ms| ==> cs[i] == FromName(ms[i])
    ensures forall c :: c in cs ==> c.NameCitation? && WellShaped(c)
  {
    seq(|ms|, i requires 0 <= i < |ms| => FromName(ms[i]))
  }

  /** The first two passes: every full citation, then each standalone citation
      whose content is not already present. */
  function CasePasses(full: seq<FullMatch>, standalone: seq<StandaloneMatch>): (r: seq<Citation>)
    ensures |full| <= |r| <= |full| + |standalone|
    ensures r[..|full|] == FullRecords(full)
    ensures forall i :: 0 <= i < |full| ==> r[i].FullCitation? && WellShaped(r[i])
    ensures forall i :: |full| <= i < |r| ==> r[i].StandaloneCitation? && WellShaped(r[i])
  {
    var full' := FullRecords(full);
    var r := Merge.AppendUnseen(full', StandaloneRecords(standalone), ContentKey);
    assert forall i :: 0 <= i < |full| ==> r[i] == full'[i];
    r
  }

  /** The third pass: each bare-name record whose case name no record in `acc`
      carries. */
  function NamePass(acc: seq<Citation>, names: seq<NameMatch>): (r: seq<Citation>)
    ensures |acc| <= |r| <= |acc| + |names|
    ensures r[..|acc|] == acc
    ensures forall i :: |acc| <= i < |r| ==> r[i].NameCitation? && WellShaped(r[i])
  {
    Merge.AppendUnseen(acc, NameRecords(names), CaseNameOf)
  }

  /** `extract_citations`, given the matches of its three patterns. */
  function Extract(full: seq<FullMatch>, standalone: seq<StandaloneMatch>, names: seq<NameMatch>): (r: seq<Citation>)
    ensures |full| <= |r| <= |full| + |standalone| + |names|
    ensures r[..|full|] == FullRecords(full)
    ensures forall i :: 0 <= i < |r| ==> WellShaped(r[i])
    ensures forall i, j :: 0 <= i < j < |r| ==> r[i].Pass() <= r[j].Pass()
    ensures forall i :: |full| <= i < |r| ==> !r[i].FullCitation?
  {
    var cases := CasePasses(full, standalone);
    var r := NamePass(cases, names);
    ExtractShape(FullRecords(full), cases, r);
    r
  }

  /** The list the three passes leave: full records, then standalone records,
      then name records. */
  lemma ExtractShape(full: seq<Citation>, cases: seq<Citation>, r: seq<Citation>)
    requires |full| <= |cases| <= |r|
    requires cases[..|full|] == full && r[..|cases|] == cases
    requires forall i :: 0 <= i < |full| ==> cases[i].FullCitation? && WellShaped(cases[i])
    requires forall i :: |full| <= i < |cases| ==> cases[i].StandaloneCitation? && WellShaped(cases[i])
    requires forall i :: |cases| <= i < |r| ==> r[i].NameCitation? && WellShaped(r[i])
    ensures r[..|full|] == full
    ensures forall i :: 0 <= i < |r| ==> WellShaped(r[i])
    ensures forall i, j :: 0 <= i < j < |r| ==> r[i].Pass() <= r[j].Pass()
    ensures forall i :: |full| <= i < |r| ==> !r[i].FullCitation?
  {
    assert r[..|full|] == cases[..|full|] by {
      assert forall i :: 0 <= i < |full| ==> r[i] == r[..|cases|][i];
    }
    forall i | 0 <= i < |r|
      ensures WellShaped(r[i])
      ensures r[i].Pass() == if i < |full| then 0 else if i < |cases| then 1 else 2
    {
      if i < |cases| {
        assert r[i] == r[..|cases|][i];
      }
    }
  }

  /** A standalone record is never a repeat: its content differs from that of
      every record before it, full or standalone. */
  lemma StandaloneContentsFresh(full: seq<FullMatch>, standalone: seq<StandaloneMatch>, names: seq<NameMatch>)
    ensures var r := Extract(full, standalone, names);
      forall i, j :: 0 <= j < i < |r| && r[i].StandaloneCitation? ==> r[j].content != r[i].content
  {
    var cases := CasePasses(full, standalone);
    var r := Extract(full, standalone, names);
    assert r[..|cases|] == cases;
    forall i, j | 0 <= j < i < |r| && r[i].StandaloneCitation?
      ensures r[j].content != r[i].content
    {
      assert i < |cases|;
      assert r[i] == cases[i] && r[j] == cases[j];
    }
  }

  /** A name record's case name differs from that of every record before it;
      a standalone record, whose case name is `None`, never matches. */
  lemma NameRecordsFresh(full: seq<FullMatch>, standalone: seq<StandaloneMatch>, names: seq<NameMatch>)
    ensures var r := Extract(full, standalone, names);
      forall i, j :: 0 <= j < i < |r| && r[i].NameCitation? ==> r[j].CaseNameKey() != r[i].CaseNameKey()
  {
    var cases := CasePasses(full, standalone);
    var r := Extract(full, standalone, names);
    assert r == NamePass(cases, names);
    NamePassFresh(cases, names);
  }

  lemma NamePassFresh(acc: seq<Citation>, names: seq<NameMatch>)
    requires forall i :: 0 <= i < |acc| ==> !acc[i].NameCitation?
    ensures var r := NamePass(acc, names);
      forall i, j :: 0 <= j < i < |r| && r[i].NameCitation? ==> r[j].CaseNameKey() != r[i].CaseNameKey()
  {
    var r := NamePass(acc, names);
    PrefixHasNoName(acc, r);
    AppendedNamesFresh(acc, names);
  }

  lemma PrefixHasNoName(acc: seq<Citation>, r: seq<Citation>)
    requires |acc| <= |r| && r[..|acc|] == acc
    requires forall i :: 0 <= i < |acc| ==> !acc[i].NameCitation?
    ensures forall i :: 0 <= i < |acc| ==> !r[i].NameCitation?
  {
    forall i | 0 <= i < |acc| ensures !r[i].NameCitation? {
      assert r[i] == r[..|acc|][i];
    }
  }

  /** Each record the third pass appends has a case name no earlier record has. */
  lemma AppendedNamesFresh(acc: seq<Citation>, names: seq<NameMatch>)
    ensures var r := NamePass(acc, names);
      forall i, j :: |acc| <= i < |r| && 0 <= j < i ==> r[j].CaseNameKey() != r[i].CaseNameKey()
  {
    var r := NamePass(acc, names);
    assert r == Merge.AppendUnseen(acc, NameRecords(names), CaseNameOf);
    forall i, j | |acc| <= i < |r| && 0 <= j < i
      ensures r[j].CaseNameKey() != r[i].CaseNameKey()
    {
      assert CaseNameOf(r[j]) != CaseNameOf(r[i]);
    }
  }

  /** Every standalone match is represented: some record carries its content. */
  lemma StandaloneMatchesCovered(full: seq<FullMatch>, standalone: seq<StandaloneMatch>, names: seq<NameMatch>, k: nat)
    requires k < |standalone|
    ensures var r := Extract(full, standalone, names);
      exists i :: 0 <= i < |r| && r[i].content == FromStandalone(standalone[k]).content
  {
    var cases := CasePasses(full, standalone);
    var r := Extract(full, standalone, names);
    var c := FromStandalone(standalone[k]).content;
    Merge.AppendUnseenKeys(FullRecords(full), StandaloneRecords(standalone), ContentKey, c);
    assert Merge.KeysOf(StandaloneRecords(standalone), ContentKey)[k] == c;
    var i :| 0 <= i < |cases| && Merge.KeysOf(cases, ContentKey)[i] == c;
    assert r[i] == cases[i];
  }

  /** Every bare-name match is represented: some record carries its case name. */
  lemma NameMatchesCovered(full: seq<FullMatch>, standalone: seq<StandaloneMatch>, names: seq<NameMatch>, k: nat)
    requires k < |names|
    ensures var r := Extract(full, standalone, names);
      exists i :: 0 <= i < |r| && r[i].CaseNameKey() == Some(FromName(names[k]).caseName)
  {
    var cases := CasePasses(full, standalone);
    var r := Extract(full, standalone, names);
    var key := Some(FromName(names[k]).caseName);
    Merge.AppendUnseenKeys(cases, NameRecords(names), CaseNameOf, key);
    assert Merge.KeysOf(NameRecords(names), CaseNameOf)[k] == key;
    var i :| 0 <= i < |r| && Merge.KeysOf(r, CaseNameOf)[i] == key;
  }

  /** The extracted list is the full citations, then the first-seen standalone
      citations (content not yet present), then the first-seen names (case name
      not yet present), each group in match order. */
  lemma ExtractIsFirstSeen(full: seq<FullMatch>, standalone: seq<StandaloneMatch>, names: seq<NameMatch>)
    ensures var full' := FullRecords(full);
      var cases := full' + Merge.FirstSeen(full', StandaloneRecords(standalone), ContentKey);
      Extract(full, standalone, names) == cases + Merge.FirstSeen(cases, NameRecords(names), CaseNameOf)
  {
    var full' := FullRecords(full);
    Merge.AppendUnseenIsFirstSeen(full', StandaloneRecords(standalone), ContentKey);
    var cases := CasePasses(full, standalone);
    Merge.AppendUnseenIsFirstSeen(cases, NameRecords(names), CaseNameOf);
  }

  /** Nothing is invented: every record is built from a match of its own pass. */
  lemma ExtractOrigin(full: seq<FullMatch>, standalone: seq<StandaloneMatch>, names: seq<NameMatch>, i: nat)
    requires i < |Extract(full, standalone, names)|
    ensures var c := Extract(full, standalone, names)[i];
      && (c.FullCitation? ==> exists m :: m in full && c == FromFull(m))
      && (c.StandaloneCitation? ==> exists m :: m in standalone && c == FromStandalone(m))
      && (c.NameCitation? ==> exists m :: m in names && c == FromName(m))
  {
    var full' := FullRecords(full);
    var cases := CasePasses(full, standalone);
    var r := Extract(full, standalone, names);
    assert r == Merge.AppendUnseen(cases, NameRecords(names), CaseNameOf);
    if i < |full| {
      assert r[i] == full'[i] == FromFull(full[i]);
    } else if i < |cases| {
      assert r[i] == cases[i];
      assert cases[i] in StandaloneRecords(standalone);
      var k :| 0 <= k < |standalone| && StandaloneRecords(standalone)[k] == cases[i];
      assert standalone[k] in standalone;
    } else {
      assert r[i] in NameRecords(names);
      var k :| 0 <= k < |names| && NameRecords(names)[k] == r[i];
      assert names[k] in names;
    }
  }
}

=== FILE: maybe.dfy ===
/** The optional value used wherever the source reads a dictionary key that may be
    absent or hold `None`. */
module Maybe {

  datatype Option<T> = None | Some(value: T) {

    /** The held value, or `default` when there is none. */
    function GetOr(default: T): T {
      match this
      case Some(v) => v
      case None => default
    }
  }
}

=== FILE: merge.dfy ===
/** The deduplicating append used by the second and third passes of
    `extract_citations`: an element is appended only when no element already in
    the list has the same key. */
module Merge {

  /** The keys of `xs`, in order. */
  function KeysOf<T, K>(xs: seq<T>, key: T -> K): (ks: seq<K>)
    ensures |ks| == |xs|
    ensures forall i :: 0 <= i < |xs| ==> ks[i] == key(xs[i])
  {
    seq(|xs|, i requires 0 <= i < |xs| => key(xs[i]))
  }

  lemma KeysOfAppend<T, K>(xs: seq<T>, ys: seq<T>, key: T -> K)
    ensures KeysOf(xs + ys, key) == KeysOf(xs, key) + KeysOf(ys, key)
  {
  }

  /** One iteration of the loop: `if not any(key(c) == key(x) for c in acc): acc.append(x)`. */
  function AppendIfUnseen<T, K(==)>(acc: seq<T>, x: T, key: T -> K): seq<T> {
    if key(x) in KeysOf(acc, key) then acc else acc + [x]
  }

  /** The whole loop over `xs`, starting from the list `acc` built by earlier passes. */
  function AppendUnseen<T, K(==)>(acc: seq<T>, xs: seq<T>, key: T -> K): (r: seq<T>)
    ensures |acc| <= |r| <= |acc| + |xs| && r[..|acc|] == acc
    ensures forall i :: |acc| <= i < |r| ==> r[i] in xs
    ensures forall i, j :: |acc| <= i < |r| && 0 <= j < i ==> key(r[j]) != key(r[i])
    decreases |xs|
  {
    if |xs| == 0 then acc
    else
      var xs' := xs[..|xs| - 1];
      assert forall x :: x in xs' ==> x in xs;
      AppendIfUnseen(AppendUnseen(acc, xs', key), xs[|xs| - 1], key)
  }

  /** After the loop, the keys present are exactly those of `acc` and of `xs`:
      nothing is lost and nothing new appears. */
  lemma {:induction false} AppendUnseenKeys<T, K>(acc: seq<T>, xs: seq<T>, key: T -> K, k: K)
    ensures k in KeysOf(AppendUnseen(acc, xs, key), key) <==> k in KeysOf(acc, key) || k in KeysOf(xs, key)
    decreases |xs|
  {
    if |xs| > 0 {
      var xs' := xs[..|xs| - 1];
      var x := xs[|xs| - 1];
      AppendUnseenKeys(acc, xs', key, k);
      AppendUnseenKeys(acc, xs', key, key(x));
      var r0 := AppendUnseen(acc, xs', key);
      KeysOfAppend(r0, [x], key);
      KeysOfAppend(xs', [x], key);
      assert xs == xs' + [x];
    }
  }

  /** Element `i` of `xs` is the first of its key: the key is neither in `acc`
      nor carried by any earlier element of `xs`. */
  predicate FirstOfKey<T, K(==)>(acc: seq<T>, xs: seq<T>, i: nat, key: T -> K)
    requires i < |xs|
  {
    key(xs[i]) !in KeysOf(acc, key) && key(xs[i]) !in KeysOf(xs[..i], key)
  }

  /** Reference definition of first-seen deduplication: the elements of `xs`
      that are the first of their key, in their original order. */
  function FirstSeen<T, K(==)>(acc: seq<T>, xs: seq<T>, key: T -> K): seq<T>
    decreases |xs|
  {
    if |xs| == 0 then []
    else
      FirstSeen(acc, xs[..|xs| - 1], key)
        + (if FirstOfKey(acc, xs, |xs| - 1, key) then [xs[|xs| - 1]] else [])
  }

  /** The loop appends to `acc` exactly the first-seen elements of `xs`, in order:
      earlier entries are kept, never removed or reordered. */
  lemma {:induction false} AppendUnseenIsFirstSeen<T, K>(acc: seq<T>, xs: seq<T>, key: T -> K)
    ensures AppendUnseen(acc, xs, key) == acc + FirstSeen(acc, xs, key)
    decreases |xs|
  {
    if |xs| > 0 {
      var xs' := xs[..|xs| - 1];
      var x := xs[|xs| - 1];
      AppendUnseenIsFirstSeen(acc, xs', key);
      AppendUnseenKeys(acc, xs', key, key(x));
      assert xs[..|xs| - 1] == xs';
    }
  }
}

=== FILE: patterns.dfy ===
/** The two regular expressions the match predicates search with, written as
    scanners that follow Python's `re.search`: try each start offset from the
    left, and at each offset take the first match the backtracking matcher
    finds. Both patterns are run on lower-cased text.

    Reporter pattern: `(\d+)\s+(u\.?s\.?|f\.?\s*(?:2d|3d|4th)?|s\.?\s*ct\.?)\s+(\d+)`.
    Party pattern:    `([a-z]{m,})\s+v\.?\s+([a-z]{m,})`, where m is 1 for
    the `+` form and 3 for the `{3,}` form. */
module Patterns {
  import opened Maybe
  import opened Strings
  import Seqs

  /** The regex `c?` at `k`: the character is taken when present. Taking it is
      also the only choice that can succeed in both patterns, since nothing
      after the optional character can start with it. */
  function SkipOptional(s: string, k: nat, c: char): (k': nat)
    requires k <= |s|
    ensures k <= k' <= |s|
  {
    if k < |s| && s[k] == c then k + 1 else k
  }

  /** `\s+(\d+)` at `k`: where the digits start. */
  function DigitsAfterSpace(s: string, k: nat): (r: Option<nat>)
    requires k <= |s|
    ensures r.Some? ==> k < r.value < |s| && IsDigit(s[r.value])
    ensures r.Some? ==> forall i :: k <= i < r.value ==> IsSpace(s[i])
  {
    var m := RunEnd(s, k, IsSpace);
    if m > k && m < |s| && IsDigit(s[m]) then Some(m) else None
  }

  /** `(?:2d|3d|4th)` at `q`: where the ordinal suffix ends. */
  function OrdinalEnd(s: string, q: nat): (r: Option<nat>)
    requires q <= |s|
    ensures r.Some? ==> q + 2 <= r.value <= |s|
  {
    if q + 2 <= |s| && (s[q..q + 2] == "2d" || s[q..q + 2] == "3d") then Some(q + 2)
    else if q + 3 <= |s| && s[q..q + 3] == "4th" then Some(q + 3)
    else None
  }

  /** With a reporter starting at `j`, where the page group starts.
      In the `f` alternative the matcher first lets `\s*` take all the
      whitespace and tries the ordinal suffix; when that path fails it gives
      whitespace back, so that `\s+` can take it, and the page must then start
      right after the whitespace. */
  function PageStart(s: string, j: nat): (r: Option<nat>)
    requires j <= |s|
    ensures r.Some? ==> j < r.value < |s| && IsDigit(s[r.value])
  {
    if j >= |s| then None
    else if s[j] == 'u' then
      var k := SkipOptional(s, j + 1, '.');
      if k < |s| && s[k] == 's' then DigitsAfterSpace(s, SkipOptional(s, k + 1, '.')) else None
    else if s[j] == 'f' then
      var p := SkipOptional(s, j + 1, '.');
      var q := RunEnd(s, p, IsSpace);
      var withOrdinal := match OrdinalEnd(s, q)
        case Some(e) => DigitsAfterSpace(s, e)
        case None => None;
      if withOrdinal.Some? then withOrdinal
      else if q > p && q < |s| && IsDigit(s[q]) then Some(q)
      else None
    else if s[j] == 's' then
      var k := RunEnd(s, SkipOptional(s, j + 1, '.'), IsSpace);
      if k + 2 <= |s| && s[k] == 'c' && s[k + 1] == 't' then DigitsAfterSpace(s, SkipOptional(s, k + 2, '.'))
      else None
    else None
  }

  /** The reporter pattern anchored at offset `i`: its volume and page groups.
      Both digit groups are maximal, since greedy `\d+` gives back nothing that
      the rest of the pattern could use. */
  function FederalAt(s: string, i: nat): (r: Option<(string, string)>)
    ensures r.Some? ==> var (volume, page) := r.value;
      && |volume| > 0 && AllDigits(volume) && |page| > 0 && AllDigits(page)
      && i + |volume| < |s| && s[i..i + |volume|] == volume && !IsDigit(s[i + |volume|])
  {
    if i >= |s| || !IsDigit(s[i]) then None
    else
      var a := RunEnd(s, i, IsDigit);
      match PageAfterVolume(s, a)
      case None => None
      case Some(pg) => Some((s[i..a], s[pg..RunEnd(s, pg, IsDigit)]))
  }

  /** `\s+(<reporter>)\s+` after the volume group ending at `a`: where the page group starts. */
  function PageAfterVolume(s: string, a: nat): (r: Option<nat>)
    requires a <= |s|
    ensures r.Some? ==> a < r.value < |s| && IsDigit(s[r.value])
  {
    var b := RunEnd(s, a, IsSpace);
    if b == a then None else PageStart(s, b)
  }

  /** `re.search` with the reporter pattern: the match at the leftmost offset. */
  function FederalSearch(s: string): (r: Option<(string, string)>)
    ensures r.Some? ==> exists i :: 0 <= i < |s| && FederalAt(s, i) == r && forall j :: 0 <= j < i ==> FederalAt(s, j).None?
    ensures r.None? <==> (forall i :: 0 <= i < |s| ==> FederalAt(s, i).None?)
  {
    var f: nat -> Option<(string, string)> := (i: nat) => FederalAt(s, i);
    assert forall i :: 0 <= i < |s| ==> f(i) == FederalAt(s, i);
    Seqs.FirstSome(0, |s|, f)
  }

  /** Both groups of a reporter match are pieces of the searched text. */
  lemma FederalSearchOccurs(s: string)
    requires FederalSearch(s).Some?
    ensures Contains(s, FederalSearch(s).value.0) && Contains(s, FederalSearch(s).value.1)
  {
    var i :| 0 <= i < |s| && FederalAt(s, i) == FederalSearch(s);
    FederalAtOccurs(s, i);
  }

  lemma FederalAtOccurs(s: string, i: nat)
    requires FederalAt(s, i).Some?
    ensures Contains(s, FederalAt(s, i).value.0) && Contains(s, FederalAt(s, i).value.1)
  {
    var r := FederalAt(s, i).value;
    assert OccursAt(s, r.0, i);
    ContainsIffOccurs(s, r.0);
    var a := RunEnd(s, i, IsDigit);
    var pg := PageAfterVolume(s, a).value;
    FederalAtGroups(s, i, a, pg);
    assert OccursAt(s, r.1, pg);
    ContainsIffOccurs(s, r.1);
  }

  lemma FederalAtGroups(s: string, i: nat, a: nat, pg: nat)
    requires i < |s| && IsDigit(s[i]) && RunEnd(s, i, IsDigit) == a
    requires PageAfterVolume(s, a) == Some(pg)
    ensures FederalAt(s, i) == Some((s[i..a], s[pg..RunEnd(s, pg, IsDigit)]))
  {
  }

  /** Text without a digit has no reporter citation. */
  lemma NoFederalWithoutDigits(s: string)
    requires forall k :: 0 <= k < |s| ==> !IsDigit(s[k])
    ensures FederalSearch(s).None?
  {
    forall i | 0 <= i < |s| ensures FederalAt(s, i).None? {
    }
  }

  /** The party pattern anchored at offset `i`, with at least `min` letters per party. */
  function PartyAt(s: string, i: nat, min: nat): (r: Option<(string, string)>)
    requires min >= 1
    ensures r.Some? ==> var (p1, p2) := r.value;
      && |p1| >= min && AllLowerAlpha(p1) && |p2| >= min && AllLowerAlpha(p2)
      && i + |p1| <= |s| && s[i..i + |p1|] == p1
  {
    if i >= |s| then None
    else
      var a := RunEnd(s, i, IsLowerAlpha);
      if a - i < min then None
      else
        match VersusEnd(s, a)
        case None => None
        case Some(e) =>
          var f := RunEnd(s, e, IsLowerAlpha);
          if f - e < min then None else Some((s[i..a], s[e..f]))
  }

  /** `\s+v\.?\s+` at `a`: where the second party group starts. */
  function VersusEnd(s: string, a: nat): (r: Option<nat>)
    requires a <= |s|
    ensures r.Some? ==> a < r.value <= |s|
  {
    var b := RunEnd(s, a, IsSpace);
    if b == a || b >= |s| || s[b] != 'v' then None
    else
      var d := SkipOptional(s, b + 1, '.');
      var e := RunEnd(s, d, IsSpace);
      if e == d then None else Some(e)
  }

  /** Both groups of a party match are pieces of the searched text. */
  lemma PartySearchOccurs(s: string, min: nat)
    requires min >= 1 && PartySearch(s, min).Some?
    ensures Contains(s, PartySearch(s, min).value.0) && Contains(s, PartySearch(s, min).value.1)
  {
    var i :| 0 <= i < |s| && PartyAt(s, i, min) == PartySearch(s, min);
    PartyAtOccurs(s, i, min);
  }

  lemma PartyAtOccurs(s: string, i: nat, min: nat)
    requires min >= 1 && PartyAt(s, i, min).Some?
    ensures Contains(s, PartyAt(s, i, min).value.0) && Contains(s, PartyAt(s, i, min).value.1)
  {
    var r := PartyAt(s, i, min).value;
    assert OccursAt(s, r.0, i);
    ContainsIffOccurs(s, r.0);
    var a := RunEnd(s, i, IsLowerAlpha);
    var e := VersusEnd(s, a).value;
    assert OccursAt(s, r.1, e);
    ContainsIffOccurs(s, r.1);
  }

  /** `re.search` with the party pattern: the match at the leftmost offset. */
  function PartySearch(s: string, min: nat): (r: Option<(string, string)>)
    requires min >= 1
    ensures r.Some? ==> exists i :: 0 <= i < |s| && PartyAt(s, i, min) == r && forall j :: 0 <= j < i ==> PartyAt(s, j, min).None?
    ensures r.None? <==> (forall i :: 0 <= i < |s| ==> PartyAt(s, i, min).None?)
  {
    var f: nat -> Option<(string, string)> := (i: nat) => PartyAt(s, i, min);
    assert forall i :: 0 <= i < |s| ==> f(i) == PartyAt(s, i, min);
    Seqs.FirstSome(0, |s|, f)
  }

  /** The lower-cased reporter spellings the extractor's reporter group
      `F\.?\s*(?:2d|3d|4th)?|U\.?S\.?|S\.?\s*Ct\.?` produces once its spaces
      are removed, when the only whitespace it captured was U+0020 spaces. A
      tab, newline or other whitespace inside the group survives the removal
      and gives a spelling outside this set. */
  const ReporterSpellings: set<string> := {
    "f", "f.", "f2d", "f.2d", "f3d", "f.3d", "f4th", "f.4th",
    "us", "u.s", "us.", "u.s.",
    "sct", "s.ct", "sct.", "s.ct."
  }

  /** `s[j..]` is `text`, then one space, then digits up to the end of `s`. */
  predicate SpacedDigitsAfter(s: string, j: nat, text: string) {
    && j + |text| + 1 < |s|
    && s[j..j + |text|] == text
    && s[j + |text|] == ' '
    && forall k :: j + |text| + 1 <= k < |s| ==> IsDigit(s[k])
  }

  lemma DigitsAfterOneSpace(s: string, k: nat)
    requires k + 1 < |s| && s[k] == ' ' && IsDigit(s[k + 1])
    ensures DigitsAfterSpace(s, k) == Some(k + 1)
  {
    RunEndIs(s, k, k + 1, IsSpace);
  }

  /** In the `f` alternative with no ordinal, the page follows the single space. */
  lemma PageStartPlainF(s: string, j: nat, r: string)
    requires r == "f" || r == "f."
    requires SpacedDigitsAfter(s, j, r)
    ensures PageStart(s, j) == Some(j + |r| + 1)
  {
    assert s[j] == r[0];
    var p := SkipOptional(s, j + 1, '.');
    assert p == j + |r| by {
      if r == "f." { assert s[j + 1] == r[1]; }
    }
    var q := j + |r| + 1;
    RunEndIs(s, p, q, IsSpace);
    assert OrdinalEnd(s, q).None? by {
      if q + 1 < |s| {
        assert IsDigit(s[q + 1]);
        assert s[q..q + 2][1] == s[q + 1];
      }
    }
  }

  /** In the `f` alternative with an ordinal, the ordinal is taken and the page follows. */
  lemma PageStartOrdinalF(s: string, j: nat, r: string, ordinal: string)
    requires ordinal == "2d" || ordinal == "3d" || ordinal == "4th"
    requires r == "f" + ordinal || r == "f." + ordinal
    requires SpacedDigitsAfter(s, j, r)
    ensures PageStart(s, j) == Some(j + |r| + 1)
  {
    var p := j + |r| - |ordinal|;
    SpellingOrdinalF(s, j, r, ordinal, p);
    OrdinalAt(s, p, ordinal);
    DigitsAfterOneSpace(s, j + |r|);
    PageStartFFrom(s, j, p, j + |r|);
  }

  /** The characters of an `f` spelling with an ordinal placed at `j`: "f",
      an optional dot, and the ordinal at `p`. */
  lemma SpellingOrdinalF(s: string, j: nat, r: string, ordinal: string, p: nat)
    requires ordinal == "2d" || ordinal == "3d" || ordinal == "4th"
    requires r == "f" + ordinal || r == "f." + ordinal
    requires SpacedDigitsAfter(s, j, r)
    requires p == j + |r| - |ordinal|
    ensures s[j] == 'f' && j + 1 <= |s| && SkipOptional(s, j + 1, '.') == p
    ensures p + |ordinal| <= |s| && s[p..p + |ordinal|] == ordinal
  {
    assert s[j] == r[0];
    assert s[p..p + |ordinal|] == ordinal by {
      assert s[p..p + |ordinal|] == s[j..j + |r|][|r| - |ordinal|..];
    }
    if r == "f." + ordinal { assert s[j + 1] == r[1]; } else { assert s[j + 1] == ordinal[0]; }
  }

  /** The ordinal suffix at `p` is recognised and ends after its last character. */
  lemma OrdinalAt(s: string, p: nat, ordinal: string)
    requires ordinal == "2d" || ordinal == "3d" || ordinal == "4th"
    requires p + |ordinal| <= |s| && s[p..p + |ordinal|] == ordinal
    ensures OrdinalEnd(s, p) == Some(p + |ordinal|)
  {
    if ordinal == "4th" {
      assert s[p..p + 2][0] == s[p] == ordinal[0] == '4';
    } else {
      assert s[p..p + 2] == ordinal;
    }
  }

  /** `PageStart` in the `f` alternative from the positions its steps reach,
      when the ordinal ending at `e` is taken. */
  lemma PageStartFFrom(s: string, j: nat, p: nat, e: nat)
    requires j < |s| && s[j] == 'f' && j + 1 <= |s| && SkipOptional(s, j + 1, '.') == p
    requires p < |s| && !IsSpace(s[p])
    requires OrdinalEnd(s, p) == Some(e) && DigitsAfterSpace(s, e) == Some(e + 1)
    ensures PageStart(s, j) == Some(e + 1)
  {
    RunEndIs(s, p, p, IsSpace);
  }

  /** In the `u` alternative the page follows the single space. */
  lemma PageStartU(s: string, j: nat, r: string)
    requires r in {"us", "u.s", "us.", "u.s."}
    requires SpacedDigitsAfter(s, j, r)
    ensures PageStart(s, j) == Some(j + |r| + 1)
  {
    assert s[j] == r[0] == 'u';
    if r == "us" {
      assert s[j + 1] == r[1];
    } else if r == "us." {
      assert s[j + 1] == r[1] && s[j + 2] == r[2];
    } else if r == "u.s" {
      assert s[j + 1] == r[1] && s[j + 2] == r[2];
    } else {
      assert s[j + 1] == r[1] && s[j + 2] == r[2] && s[j + 3] == r[3];
    }
    DigitsAfterOneSpace(s, j + |r|);
  }

  /** In the `s` alternative the page follows the single space. */
  lemma PageStartS(s: string, j: nat, r: string)
    requires r in {"sct", "s.ct", "sct.", "s.ct."}
    requires SpacedDigitsAfter(s, j, r)
    ensures PageStart(s, j) == Some(j + |r| + 1)
  {
    var c := if r[1] == '.' then j + 2 else j + 1;
    SpellingS(s, j, r, c);
    DigitsAfterOneSpace(s, j + |r|);
    PageStartSFrom(s, j, c, j + |r|);
  }

  /** The characters of an `s` spelling placed at `j`: "s", an optional dot,
      "ct" at `c` and an optional dot ending at `j + |r|`. */
  lemma SpellingS(s: string, j: nat, r: string, c: nat)
    requires r in {"sct", "s.ct", "sct.", "s.ct."}
    requires SpacedDigitsAfter(s, j, r)
    requires c == if r[1] == '.' then j + 2 else j + 1
    ensures s[j] == 's' && SkipOptional(s, j + 1, '.') == c
    ensures c + 2 <= |s| && s[c] == 'c' && s[c + 1] == 't'
    ensures SkipOptional(s, c + 2, '.') == j + |r|
  {
    assert s[j] == r[0];
    assert s[j + 1] == r[1];
    assert s[c] == r[c - j] && s[c + 1] == r[c - j + 1];
    if c + 2 < j + |r| { assert s[c + 2] == r[c + 2 - j]; }
  }

  /** `PageStart` in the `s` alternative from the positions its steps reach. */
  lemma PageStartSFrom(s: string, j: nat, c: nat, e: nat)
    requires j < |s| && s[j] == 's' && j + 1 <= |s| && SkipOptional(s, j + 1, '.') == c
    requires c + 2 <= |s| && s[c] == 'c' && s[c + 1] == 't'
    requires SkipOptional(s, c + 2, '.') == e
    requires e + 1 < |s| && DigitsAfterSpace(s, e) == Some(e + 1)
    ensures PageStart(s, j) == Some(e + 1)
  {
    RunEndIs(s, c, c, IsSpace);
  }

  /** For every reporter spelling, the page group starts right after the space
      that follows the reporter. */
  lemma PageStartAfterReporter(s: string, j: nat, r: string)
    requires r in ReporterSpellings
    requires SpacedDigitsAfter(s, j, r)
    ensures PageStart(s, j) == Some(j + |r| + 1)
  {
    if r == "f" || r == "f." {
      PageStartPlainF(s, j, r);
    } else if r in {"f2d", "f.2d"} {
      PageStartOrdinalF(s, j, r, "2d");
    } else if r in {"f3d", "f.3d"} {
      PageStartOrdinalF(s, j, r, "3d");
    } else if r in {"f4th", "f.4th"} {
      PageStartOrdinalF(s, j, r, "4th");
    } else if r in {"us", "u.s", "us.", "u.s."} {
      PageStartU(s, j, r);
    } else {
      PageStartS(s, j, r);
    }
  }

  lemma SpellingShape(r: string)
    requires r in ReporterSpellings
    ensures |r| > 0 && !IsSpace(r[0])
  {
  }

  /** Anchored at offset 0 of "volume reporter page", the reporter pattern
      matches with that volume and page once the page is known to start at `pg`. */
  lemma FederalAtFormatted(s: string, volume: string, pg: nat)
    requires |volume| > 0 && AllDigits(volume)
    requires |volume| + 1 < pg < |s|
    requires s[..|volume|] == volume && s[|volume|] == ' ' && !IsSpace(s[|volume| + 1])
    requires PageStart(s, |volume| + 1) == Some(pg)
    requires forall k :: pg <= k < |s| ==> IsDigit(s[k])
    ensures FederalAt(s, 0) == Some((volume, s[pg..]))
  {
    var a := |volume|;
    VolumeRun(s, volume);
    RunEndIs(s, a, a + 1, IsSpace);
    assert PageAfterVolume(s, a) == Some(pg);
    RunEndIs(s, pg, |s|, IsDigit);
    FederalAtParts(s, a, pg);
    assert s[0..a] == volume;
  }

  /** A digit string at the start of `s`, followed by a space, is the volume run. */
  lemma VolumeRun(s: string, volume: string)
    requires |volume| > 0 && AllDigits(volume)
    requires |volume| < |s| && s[..|volume|] == volume && s[|volume|] == ' '
    ensures RunEnd(s, 0, IsDigit) == |volume| && IsDigit(s[0])
  {
    var a := |volume|;
    forall k | 0 <= k < a ensures IsDigit(s[k]) {
      assert s[k] == s[..a][k] == volume[k];
    }
    RunEndIs(s, 0, a, IsDigit);
  }

  /** `FederalAt` from the positions its steps reach. */
  lemma FederalAtParts(s: string, a: nat, pg: nat)
    requires 0 < |s| && IsDigit(s[0]) && a <= |s| && RunEnd(s, 0, IsDigit) == a
    requires PageAfterVolume(s, a) == Some(pg)
    requires RunEnd(s, pg, IsDigit) == |s|
    ensures FederalAt(s, 0) == Some((s[0..a], s[pg..]))
  {
    assert s[pg..RunEnd(s, pg, IsDigit)] == s[pg..];
  }

  /** The reporter scanner recovers volume and page from a citation formatted
      as "volume reporter page" with a reporter spelling from
      `ReporterSpellings`, that is, one whose only internal whitespace was
      spaces. */
  lemma FederalFindsCitation(volume: string, reporter: string, page: string)
    requires |volume| > 0 && AllDigits(volume) && |page| > 0 && AllDigits(page)
    requires reporter in ReporterSpellings
    ensures FederalSearch(volume + " " + reporter + " " + page) == Some((volume, page))
  {
    var s := volume + " " + reporter + " " + page;
    var j := |volume| + 1;
    var pg := j + |reporter| + 1;
    SpellingShape(reporter);
    assert s[..|volume|] == volume && s[|volume|] == ' ' && s[j] == reporter[0];
    assert s[pg..] == page;
    assert SpacedDigitsAfter(s, j, reporter) by {
      assert s[j..j + |reporter|] == reporter;
    }
    PageStartAfterReporter(s, j, reporter);
    FederalAtFormatted(s, volume, pg);
    var f: nat -> Option<(string, string)> := (i: nat) => FederalAt(s, i);
    Seqs.FirstSomeAt(0, |s|, f, 0);
  }

  /** A text without the letter `v` has no party match. */
  lemma NoPartyWithoutV(s: string, min: nat)
    requires min >= 1
    requires 'v' !in s
    ensures PartySearch(s, min).None?
  {
    forall a | 0 <= a <= |s| ensures VersusEnd(s, a).None? {
      var b := RunEnd(s, a, IsSpace);
      if b < |s| {
        assert s[b] in s;
      }
    }
  }

  /** " v " or " v. " followed by a non-space: the second party starts right after it. */
  lemma VersusEndSeparator(s: string, a: nat, sep: string)
    requires sep == " v " || sep == " v. "
    requires a + |sep| < |s| && s[a..a + |sep|] == sep && !IsSpace(s[a + |sep|])
    ensures VersusEnd(s, a) == Some(a + |sep|)
  {
    assert s[a] == sep[0] && s[a + 1] == sep[1] && s[a + 2] == sep[2];
    RunEndIs(s, a, a + 1, IsSpace);
    var d := a + |sep| - 1;
    assert SkipOptional(s, a + 2, '.') == d by {
      if sep == " v. " { assert s[a + 3] == sep[3]; }
    }
    assert s[d] == sep[|sep| - 1] == ' ';
    RunEndIs(s, d, d + 1, IsSpace);
  }

  /** A word of letters placed at `start` and not followed by a letter is the
      run of letters found there. */
  lemma LetterRunIsWord(s: string, start: nat, word: string)
    requires AllLowerAlpha(word)
    requires start + |word| <= |s| && s[start..start + |word|] == word
    requires start + |word| < |s| ==> !IsLowerAlpha(s[start + |word|])
    ensures RunEnd(s, start, IsLowerAlpha) == start + |word|
  {
    forall k | start <= k < start + |word| ensures IsLowerAlpha(s[k]) {
      assert s[k] == word[k - start];
    }
    RunEndIs(s, start, start + |word|, IsLowerAlpha);
  }

  /** Anchored at offset 0 of "p1 v. p2…" (or "p1 v p2…"), the party pattern
      matches with the two names, provided each has at least `min` letters and
      the second is not followed by another letter. */
  lemma PartyAtNames(s: string, p1: string, sep: string, p2: string, min: nat)
    requires min >= 1
    requires AllLowerAlpha(p1) && |p1| >= min && AllLowerAlpha(p2) && |p2| >= min
    requires sep == " v " || sep == " v. "
    requires |p1| + |sep| + |p2| <= |s|
    requires s[..|p1|] == p1 && s[|p1|..|p1| + |sep|] == sep
    requires s[|p1| + |sep|..|p1| + |sep| + |p2|] == p2
    requires |p1| + |sep| + |p2| < |s| ==> !IsLowerAlpha(s[|p1| + |sep| + |p2|])
    ensures PartyAt(s, 0, min) == Some((p1, p2))
  {
    var a := |p1|;
    var e := a + |sep|;
    var f := e + |p2|;
    assert s[a] == ' ' by { assert s[a] == s[a..e][0]; }
    assert s[0..a] == p1;
    LetterRunIsWord(s, 0, p1);
    assert !IsSpace(s[e]) by { assert s[e] == s[e..f][0]; }
    VersusEndSeparator(s, a, sep);
    LetterRunIsWord(s, e, p2);
    PartyAtParts(s, 0, a, e, f, min);
  }

  /** `PartyAt` from the positions its steps reach. */
  lemma PartyAtParts(s: string, i: nat, a: nat, e: nat, f: nat, min: nat)
    requires min >= 1 && i < |s| && a <= |s| && e <= |s|
    requires RunEnd(s, i, IsLowerAlpha) == a && a - i >= min
    requires VersusEnd(s, a) == Some(e)
    requires RunEnd(s, e, IsLowerAlpha) == f && f - e >= min
    ensures PartyAt(s, i, min) == Some((s[i..a], s[e..f]))
  {
  }

  /** The party scanner finds the two names of "p1 v. p2…". */
  lemma PartyFindsNames(p1: string, sep: string, p2: string, tail: string, min: nat)
    requires min >= 1
    requires AllLowerAlpha(p1) && |p1| >= min && AllLowerAlpha(p2) && |p2| >= min
    requires sep == " v " || sep == " v. "
    requires tail == [] || !IsLowerAlpha(tail[0])
    ensures PartySearch(p1 + sep + p2 + tail, min) == Some((p1, p2))
  {
    var s := p1 + sep + p2 + tail;
    var end := |p1| + |sep| + |p2|;
    assert s[..|p1|] == p1 && s[|p1|..|p1| + |sep|] == sep;
    assert s[|p1| + |sep|..end] == p2;
    if end < |s| {
      assert s[end] == tail[0];
    }
    PartyAtNames(s, p1, sep, p2, min);
    var f: nat -> Option<(string, string)> := (i: nat) => PartyAt(s, i, min);
    Seqs.FirstSomeAt(0, |s|, f, 0);
  }
}

=== FILE: pipeline.dfy ===
/** The detector's flow from extracted citations to the final verdict:
    extraction, the verification scan, and the second and third stages. The
    first stage only phrases a prompt for the model and is not part of this
    model. */
module Pipeline {
  import opened Maybe
  import opened Strings
  import opened Extraction
  import opened Verification
  import opened Scan
  import opened Synthesis

  /** How the scan reads an extracted record: its type and its content. */
  function ToItem(c: Citation): ScanItem {
    ScanItem(c.Type(), c.content)
  }

  function ToItems(cs: seq<Citation>): (items: seq<ScanItem>)
    ensures |items| == |cs|
    ensures forall i :: 0 <= i < |cs| ==> items[i] == ToItem(cs[i])
  {
    seq(|cs|, i requires 0 <= i < |cs| => ToItem(cs[i]))
  }

  /** What the two stages conclude from the verification results. */
  datatype Verdict = Verdict(stage2: Stage2Result, stage3: Stage3Result)

  /** The second and third stages on the same verification results; they
      agree that a hallucination was detected exactly when some citation went
      unverified. */
  function Stages(rag: RagResults, reply2: Reply, reply3: Reply): (v: Verdict)
    ensures v.stage3.hallucinationDetected <==> |rag.unverified| > 0
    ensures v.stage2.hallucinationDetected == Some(false) <==> |rag.unverified| == 0
    ensures v.stage2.hallucinationDetected == Some(true) ==> v.stage3.hallucinationDetected
  {
    Verdict(Stage2(rag, reply2), Stage3(rag, reply3))
  }

  /** Everything one analysis produces. */
  datatype Analysis = Analysis(citations: seq<Citation>, rag: RagResults, verdict: Verdict, cache: Cache, queries: seq<Query>)

  /** `a` carries the scan of `citations` against `db` started from `cache`:
      its results account for exactly the examined citations of at least five
      characters, each sorted by the verdict its slot holds; the cache gains
      exactly their slots, each filled from the database, and keeps every
      earlier entry. */
  predicate ScansCitations(db: Database, cache: Cache, citations: seq<Citation>, a: Analysis) {
    var items := Examined(ToItems(citations));
    && ResultsCover(items, a.rag)
    && SortedByVerdict(a.cache, items, a.rag.verified, a.rag.unverified)
    && a.cache.Keys == cache.Keys + CheckedKeys(items)
    && (forall k :: k in cache ==> a.cache[k] == cache[k])
    && FilledFrom(db, cache, items, a.cache)
  }

  /** The verification scan and the two stages, run on the extracted
      records `citations`; `reply2` and `reply3` are the model's answers to
      the two stage prompts. */
  function Assess(db: Database, cache: Cache, citations: seq<Citation>, reply2: Reply, reply3: Reply): (a: Analysis)
    ensures a.citations == citations
    ensures a.verdict.stage3.hallucinationDetected <==> |a.rag.unverified| > 0
    ensures a.verdict.stage2.hallucinationDetected == Some(false) <==> |a.rag.unverified| == 0
    ensures a.rag.totalChecked == |a.rag.verified| + |a.rag.unverified| <= ScanLimit
    ensures ScansCitations(db, cache, citations, a)
  {
    var items := ToItems(citations);
    var outcome := VerifyCitationsWithRag(db, cache, items);
    Analysis(citations, outcome.results, Stages(outcome.results, reply2, reply3), outcome.cache, outcome.queries)
  }

  /** One analysis of a document whose pattern matches are `full`,
      `standalone` and `names`. Every extracted record has type "case" or
      "case_name", so the type filter before the scan keeps them all. */
  function Analyze(
    db: Database, cache: Cache,
    full: seq<FullMatch>, standalone: seq<StandaloneMatch>, names: seq<NameMatch>,
    reply2: Reply, reply3: Reply): (a: Analysis)
    ensures a.citations == Extract(full, standalone, names)
    ensures a.verdict.stage3.hallucinationDetected <==> |a.rag.unverified| > 0
    ensures a.verdict.stage2.hallucinationDetected == Some(false) <==> |a.rag.unverified| == 0
    ensures a.rag.totalChecked <= ScanLimit
    ensures ScansCitations(db, cache, a.citations, a)
  {
    Assess(db, cache, Extract(full, standalone, names), reply2, reply3)
  }

  /** Every extracted record has type "case" or "case_name", so the type
      filter before the scan keeps them all; there is at least one record per
      full match and at most one per match. */
  lemma AnalyzeKeepsEveryRecord(
    db: Database, cache: Cache,
    full: seq<FullMatch>, standalone: seq<StandaloneMatch>, names: seq<NameMatch>,
    reply2: Reply, reply3: Reply)
    ensures var a := Analyze(db, cache, full, standalone, names, reply2, reply3);
      && (forall c :: c in a.citations ==> c.Type() == "case" || c.Type() == "case_name")
      && |full| <= |a.citations| <= |full| + |standalone| + |names|
  {
  }

  /** A document without citations costs no query and leaves the cache as it
      is; the second stage reports that nothing failed without consulting the
      model, and the third reports no hallucination whatever the model says. */
  lemma NothingExtracted(db: Database, cache: Cache, reply2: Reply, reply3: Reply)
    ensures var a := Analyze(db, cache, [], [], [], reply2, reply3);
      && a.citations == [] && a.queries == [] && a.cache == cache
      && a.rag.totalChecked == 0 && a.rag.verificationRate == 0.0
      && a.verdict.stage2.hallucinationDetected == Some(false)
      && !a.verdict.stage3.hallucinationDetected
  {
    var citations := Extract([], [], []);
    assert citations == [];
    assert ToItems(citations) == [];
  }

  /** The groups the three patterns capture are never empty: a volume, a
      reporter starting with a letter, a page, and party names starting with
      a capital. */
  predicate ProperFull(m: FullMatch) {
    m.volume != [] && m.reporter != [] && m.reporter[0] != ' ' && m.page != []
  }

  predicate ProperStandalone(m: StandaloneMatch) {
    m.volume != [] && m.reporter != [] && m.reporter[0] != ' ' && m.page != []
  }

  predicate ProperName(m: NameMatch) {
    m.plaintiff != [] && !IsSpace(m.plaintiff[0]) && m.defendant != [] && !IsSpace(m.defendant[0])
  }

  /** A string whose first character is not whitespace survives stripping. */
  lemma StripKeepsFirst(s: string)
    requires s != [] && !IsSpace(s[0])
    ensures Strip(s) != []
  {
    assert RunEnd(s, 0, IsSpace) == 0;
  }

  /** Removing spaces keeps a reporter whose first character is not a space. */
  lemma RemoveSpacesKeepsFirst(s: string)
    requires s != [] && s[0] != ' '
    ensures RemoveSpaces(s) != []
  {
    assert multiset(s)[s[0]] > 0;
  }

  /** The scan's five-character filter never drops a record the extractor
      built from proper matches: every extracted citation is checked. */
  lemma ExtractedNeverSkipped(full: seq<FullMatch>, standalone: seq<StandaloneMatch>, names: seq<NameMatch>)
    requires forall m :: m in full ==> ProperFull(m)
    requires forall m :: m in standalone ==> ProperStandalone(m)
    requires forall m :: m in names ==> ProperName(m)
    ensures var items := ToItems(Extract(full, standalone, names));
      forall i :: 0 <= i < |items| ==> Eligible(items[i])
  {
    var r := Extract(full, standalone, names);
    forall i | 0 <= i < |r| ensures |r[i].content| >= MinContentLength {
      ExtractedRecordProper(full, standalone, names, i);
    }
  }

  /** Each extracted record comes from a proper match and so is long enough. */
  lemma ExtractedRecordProper(full: seq<FullMatch>, standalone: seq<StandaloneMatch>, names: seq<NameMatch>, i: nat)
    requires forall m :: m in full ==> ProperFull(m)
    requires forall m :: m in standalone ==> ProperStandalone(m)
    requires forall m :: m in names ==> ProperName(m)
    requires i < |Extract(full, standalone, names)|
    ensures |Extract(full, standalone, names)[i].content| >= MinContentLength
  {
    var c := Extract(full, standalone, names)[i];
    ExtractOrigin(full, standalone, names, i);
    match c
    case FullCitation(_, _, _, _, _, _, _, _, _) =>
      var m :| m in full && c == FromFull(m);
      RemoveSpacesKeepsFirst(m.reporter);
    case StandaloneCitation(_, _, _, _, _) =>
      var m :| m in standalone && c == FromStandalone(m);
      RemoveSpacesKeepsFirst(m.reporter);
    case NameCitation(_, _, _) =>
      var m :| m in names && c == FromName(m);
      StripKeepsFirst(m.plaintiff);
      StripKeepsFirst(m.defendant);
  }
}

=== FILE: scan.dfy ===
/** The verification scan (`enhanced_scan_with_rag`) and the detector's
    wrapper around it (`verify_citations_with_rag`): the first fifteen
    extracted citations are checked one by one against the database, sharing
    one cache, and sorted into verified and unverified entries. */
module Scan {
  import opened Maybe
  import opened Verification
  import Merge

  /** An extracted citation as the scan reads it: its `"type"` and `"content"`
      (either is the empty string when absent). */
  datatype ScanItem = ScanItem(kind: string, content: string)

  datatype VerifiedEntry = VerifiedEntry(
    content: string, kind: string,
    caseName: Option<string>, court: Option<string>, dateFiled: Option<string>,
    confidence: nat, strategy: Option<Strategy>)

  datatype UnverifiedEntry = UnverifiedEntry(content: string, kind: string, reason: string)

  const NotFoundReason: string := "Not found in CourtListener database"

  /** At most this many citations are examined. */
  const ScanLimit: nat := 15

  /** Shorter contents are skipped. */
  const MinContentLength: nat := 5

  /** The two lists and the context lines built by the loop. */
  datatype Report = Report(verified: seq<VerifiedEntry>, unverified: seq<UnverifiedEntry>, context: seq<string>)

  datatype ScanState = ScanState(report: Report, cache: Cache, queries: seq<Query>)

  function ItemContent(item: ScanItem): string { item.content }
  function VerifiedContent(e: VerifiedEntry): string { e.content }
  function UnverifiedContent(e: UnverifiedEntry): string { e.content }

  predicate Eligible(item: ScanItem) {
    |item.content| >= MinContentLength
  }

  /** The items the loop does not skip, in order. */
  function Checked(items: seq<ScanItem>): (r: seq<ScanItem>)
    ensures forall x :: x in r ==> x in items && Eligible(x)
  {
    if items == [] then []
    else
      var last := items[|items| - 1];
      Checked(items[..|items| - 1]) + (if Eligible(last) then [last] else [])
  }

  /** The cache slot an item is verified under: case names are checked by
      name, every other type as a citation. */
  function KeyOf(item: ScanItem): string {
    if item.kind == "case_name" then NameKey(item.content) else CitationKey(item.content)
  }

  /** The cache slots of the items the loop does not skip. */
  function CheckedKeys(items: seq<ScanItem>): set<string> {
    set i | 0 <= i < |items| && Eligible(items[i]) :: KeyOf(items[i])
  }

  /** The dispatch on the citation type: `"case_name"` goes to the name check,
      everything else (`"case"`, `"case_citation"`, anything unknown) to the
      citation check. */
  function Check(db: Database, cache: Cache, item: ScanItem): (o: Outcome)
    ensures o.cache == cache[KeyOf(item) := o.record]
    ensures KeyOf(item) in cache ==> o.record == cache[KeyOf(item)] && o.queries == []
    ensures KeyOf(item) !in cache ==> (o.record.NameVerification? <==> item.kind == "case_name")
    ensures KeyOf(item) !in cache && item.kind == "case_name" ==>
      o.record == NameLadder(db, item.content).record && o.queries == NameLadder(db, item.content).queries
    ensures KeyOf(item) !in cache && item.kind != "case_name" ==>
      o.record == CitationLadder(db, item.content).record && o.queries == CitationLadder(db, item.content).queries
    ensures CacheWellFormed(cache) ==> CacheWellFormed(o.cache) && o.record.WellFormed()
  {
    if item.kind == "case_name" then VerifyCaseName(db, cache, item.content)
    else VerifyCitation(db, cache, item.content)
  }

  /** How an f-string prints an optional value. */
  function PyStr(o: Option<string>): string {
    match o
    case Some(s) => s
    case None => "None"
  }

  /** The checked contents a report holds, verified or not. */
  function ReportContents(rep: Report): multiset<string> {
    multiset(Merge.KeysOf(rep.verified, VerifiedContent)) + multiset(Merge.KeysOf(rep.unverified, UnverifiedContent))
  }

  /** Every unverified entry gives the not-found reason. */
  predicate ReasonsGiven(rep: Report) {
    forall e :: e in rep.unverified ==> e.reason == NotFoundReason
  }

  /** Every verified entry carries the confidence of one of the strategies. */
  predicate ConfidencesKnown(rep: Report) {
    forall e :: e in rep.verified ==> e.confidence in {80, 85, 90}
  }

  /** The entry and the context line for one checked item: a verified record
      adds a verified entry carrying its details, any other an unverified one. */
  function Record(rep: Report, item: ScanItem, rec: Verification): (r: Report)
    ensures rec.verified ==> |r.verified| == |rep.verified| + 1 && r.unverified == rep.unverified
    ensures rec.verified ==> var e := r.verified[|rep.verified|];
      e.content == item.content && e.kind == item.kind && e.confidence == rec.confidence
      && e.court == rec.court && e.dateFiled == rec.dateFiled
      && e.caseName == rec.CaseNameField() && e.strategy == rec.StrategyField()
    ensures !rec.verified ==> r.verified == rep.verified && |r.unverified| == |rep.unverified| + 1
    ensures !rec.verified ==> r.unverified[|rep.unverified|] == UnverifiedEntry(item.content, item.kind, NotFoundReason)
    ensures r.verified[..|rep.verified|] == rep.verified && r.unverified[..|rep.unverified|] == rep.unverified
    ensures |r.context| == |rep.context| + 1
    ensures ReasonsGiven(rep) ==> ReasonsGiven(r)
    ensures ConfidencesKnown(rep) && rec.WellFormed() ==> ConfidencesKnown(r)
  {
    if rec.verified then
      var entry := VerifiedEntry(
        item.content, item.kind, rec.CaseNameField(), rec.court, rec.dateFiled,
        rec.confidence, rec.StrategyField());
      var line := "VERIFIED: " + item.content + " is " + PyStr(rec.CaseNameField())
        + " (" + PyStr(rec.court) + ", " + PyStr(rec.dateFiled) + ")";
      Report(rep.verified + [entry], rep.unverified, rep.context + [line])
    else
      var entry := UnverifiedEntry(item.content, item.kind, NotFoundReason);
      var line := "NOT FOUND: " + item.content + " could not be verified";
      Report(rep.verified, rep.unverified + [entry], rep.context + [line])
  }

  /** One iteration of the loop on an item that is not skipped: its slot is
      read or filled and its entry appended. */
  function ScanStep(db: Database, st: ScanState, item: ScanItem): (r: ScanState)
    ensures r.cache.Keys == st.cache.Keys + {KeyOf(item)}
    ensures forall k :: k in st.cache ==> r.cache[k] == st.cache[k]
    ensures KeyOf(item) in st.cache ==> r.queries == st.queries
    ensures r.report == Record(st.report, item, r.cache[KeyOf(item)])
    ensures KeyOf(item) !in st.cache ==> r.cache[KeyOf(item)] == Fresh(db, item)
    ensures CacheWellFormed(st.cache) ==> CacheWellFormed(r.cache) && r.cache[KeyOf(item)].WellFormed()
  {
    var o := Check(db, st.cache, item);
    ScanState(Record(st.report, item, o.record), o.cache, st.queries + o.queries)
  }

  /** Every item of `items` not skipped lands in exactly one of the two lists
      of `rep`, with one context line each, and every unverified entry gives
      the not-found reason. */
  predicate ReportCovers(items: seq<ScanItem>, rep: Report) {
    && |rep.verified| + |rep.unverified| == |rep.context| == |Checked(items)|
    && ReportContents(rep) == multiset(Merge.KeysOf(Checked(items), ItemContent))
    && ReasonsGiven(rep)
  }

  /** `after` holds every entry of `before` unchanged, plus the slots of the
      items of `items` not skipped, and nothing else. */
  predicate CacheCovers(before: Cache, items: seq<ScanItem>, after: Cache) {
    && after.Keys == before.Keys + CheckedKeys(items)
    && (forall k :: k in before ==> after[k] == before[k])
  }

  /** What the loop has achieved after `items`, starting from `cache`; records
      the engine produced stay well-formed. */
  predicate Scanned(cache: Cache, items: seq<ScanItem>, st: ScanState) {
    && ReportCovers(items, st.report)
    && CacheCovers(cache, items, st.cache)
    && (CacheWellFormed(cache) ==> CacheWellFormed(st.cache) && ConfidencesKnown(st.report))
  }

  /** The loop of `enhanced_scan_with_rag` over `items`. */
  function ScanItems(db: Database, cache: Cache, items: seq<ScanItem>): (st: ScanState)
    ensures Scanned(cache, items, st)
    ensures FilledFrom(db, cache, items, st.cache)
    decreases |items|
  {
    if items == [] then ScanState(Report([], [], []), cache, [])
    else
      var prefix := items[..|items| - 1];
      var item := items[|items| - 1];
      assert items == prefix + [item];
      var st := ScanItems(db, cache, prefix);
      var r := if Eligible(item) then ScanStep(db, st, item) else st;
      ScannedSnoc(db, cache, prefix, item, st, r);
      FilledSnoc(db, cache, prefix, item, st, r);
      r
  }

  /** One iteration keeps `Scanned`. */
  lemma ScannedSnoc(db: Database, cache: Cache, prefix: seq<ScanItem>, item: ScanItem, st: ScanState, r: ScanState)
    requires Scanned(cache, prefix, st)
    requires r == if Eligible(item) then ScanStep(db, st, item) else st
    ensures Scanned(cache, prefix + [item], r)
  {
    CheckedSnoc(prefix, item);
    if Eligible(item) {
      var rec := r.cache[KeyOf(item)];
      ReportCoversSnoc(prefix, item, st.report, r.report, rec);
      CacheCoversSnoc(cache, prefix, item, st.cache, r.cache);
      if CacheWellFormed(cache) {
        assert ConfidencesKnown(r.report) by {
          assert rec.WellFormed();
        }
      }
    } else {
      assert Checked(prefix + [item]) == Checked(prefix);
      CheckedKeysSnoc(prefix, item);
    }
  }

  lemma CacheCoversSnoc(cache: Cache, prefix: seq<ScanItem>, item: ScanItem, mid: Cache, after: Cache)
    requires Eligible(item)
    requires CacheCovers(cache, prefix, mid)
    requires after.Keys == mid.Keys + {KeyOf(item)}
    requires forall k :: k in mid ==> after[k] == mid[k]
    ensures CacheCovers(cache, prefix + [item], after)
  {
    CheckedKeysSnoc(prefix, item);
  }

  lemma ReportCoversSnoc(prefix: seq<ScanItem>, item: ScanItem, rep: Report, rep': Report, rec: Verification)
    requires Eligible(item)
    requires ReportCovers(prefix, rep)
    requires rep' == Record(rep, item, rec)
    requires Checked(prefix + [item]) == Checked(prefix) + [item]
    ensures ReportCovers(prefix + [item], rep')
  {
    ContentsSnoc(prefix, item, rep, rep', rec);
  }

  lemma CheckedSnoc(prefix: seq<ScanItem>, item: ScanItem)
    ensures Checked(prefix + [item]) == Checked(prefix) + (if Eligible(item) then [item] else [])
  {
    var items := prefix + [item];
    assert items[..|items| - 1] == prefix;
  }

  /** Recording an item adds its content to the report's contents. */
  lemma ContentsSnoc(prefix: seq<ScanItem>, item: ScanItem, rep: Report, rep': Report, rec: Verification)
    requires ReportContents(rep) == multiset(Merge.KeysOf(Checked(prefix), ItemContent))
    requires rep' == Record(rep, item, rec)
    ensures ReportContents(rep') == multiset(Merge.KeysOf(Checked(prefix) + [item], ItemContent))
  {
    Merge.KeysOfAppend(Checked(prefix), [item], ItemContent);
    assert Merge.KeysOf([item], ItemContent) == [item.content];
    RecordContents(rep, item, rec);
  }


  lemma CheckedKeysSnoc(prefix: seq<ScanItem>, item: ScanItem)
    ensures CheckedKeys(prefix + [item]) == CheckedKeys(prefix) + (if Eligible(item) then {KeyOf(item)} else {})
  {
    var items := prefix + [item];
    forall i | 0 <= i < |prefix| ensures items[i] == prefix[i] {
    }
    assert items[|prefix|] == item;
  }

  /** The report a scan of `items` produces when every record is the one held
      in `cache`. */
  function Replay(cache: Cache, items: seq<ScanItem>): Report
    requires CheckedKeys(items) <= cache.Keys
    decreases |items|
  {
    if items == [] then Report([], [], [])
    else
      var prefix := items[..|items| - 1];
      var item := items[|items| - 1];
      CheckedKeysSnoc(prefix, item);
      assert items == prefix + [item];
      var rep := Replay(cache, prefix);
      if Eligible(item) then Record(rep, item, cache[KeyOf(item)]) else rep
  }

  /** Two caches that agree on the checked slots replay the same report. */
  lemma {:induction false} ReplayAgrees(c1: Cache, c2: Cache, items: seq<ScanItem>)
    requires CheckedKeys(items) <= c1.Keys && CheckedKeys(items) <= c2.Keys
    requires forall k :: k in CheckedKeys(items) ==> c1[k] == c2[k]
    ensures Replay(c1, items) == Replay(c2, items)
    decreases |items|
  {
    if items != [] {
      var prefix := items[..|items| - 1];
      var item := items[|items| - 1];
      CheckedKeysSnoc(prefix, item);
      assert items == prefix + [item];
      ReplayAgrees(c1, c2, prefix);
    }
  }

  /** A slot is written once and never overwritten, so every entry of a scan
      is the one the final cache holds for its item. */
  lemma {:induction false} ScanReadsFinalCache(db: Database, cache: Cache, items: seq<ScanItem>)
    ensures var st := ScanItems(db, cache, items);
      CheckedKeys(items) <= st.cache.Keys && st.report == Replay(st.cache, items)
    decreases |items|
  {
    if items != [] {
      var prefix := items[..|items| - 1];
      var item := items[|items| - 1];
      CheckedKeysSnoc(prefix, item);
      assert items == prefix + [item];
      var st := ScanItems(db, cache, prefix);
      ScanReadsFinalCache(db, cache, prefix);
      var final := ScanItems(db, cache, items).cache;
      ScanKeepsEntries(db, st.cache, cache, items);
      ReplayAgrees(st.cache, final, prefix);
    }
  }

  /** The final cache of a scan agrees with the cache after its prefix. */
  lemma ScanKeepsEntries(db: Database, mid: Cache, cache: Cache, items: seq<ScanItem>)
    requires items != [] && mid == ScanItems(db, cache, items[..|items| - 1]).cache
    ensures forall k :: k in mid ==> k in ScanItems(db, cache, items).cache && ScanItems(db, cache, items).cache[k] == mid[k]
  {
  }

  /** With every checked slot already cached, a scan sends no query, leaves the
      cache as it is and reports what the cache holds. */
  lemma {:induction false} ScanWarmCache(db: Database, cache: Cache, items: seq<ScanItem>)
    requires CheckedKeys(items) <= cache.Keys
    ensures var st := ScanItems(db, cache, items);
      st.queries == [] && st.cache == cache && st.report == Replay(cache, items)
    decreases |items|
  {
    if items != [] {
      var prefix := items[..|items| - 1];
      var item := items[|items| - 1];
      CheckedKeysSnoc(prefix, item);
      assert items == prefix + [item];
      ScanWarmCache(db, cache, prefix);
    }
  }

  /** Scanning the same citations again, against any database, reproduces the
      first report without a single query and without touching the cache. */
  lemma ScanRepeat(db: Database, db': Database, cache: Cache, items: seq<ScanItem>)
    ensures var first := ScanItems(db, cache, items);
      var second := ScanItems(db', first.cache, items);
      second.report == first.report && second.cache == first.cache && second.queries == []
  {
    var first := ScanItems(db, cache, items);
    ScanReadsFinalCache(db, cache, items);
    ScanWarmCache(db', first.cache, items);
  }

  /** What a check against an empty cache records for `item`: the name
      search for a case name, the citation ladder for anything else. */
  function Fresh(db: Database, item: ScanItem): Verification {
    if item.kind == "case_name" then NameLadder(db, item.content).record
    else CitationLadder(db, item.content).record
  }

  /** Every slot of `after` that `before` lacks holds what the database says
      about an item of `items`, not skipped, with that slot. */
  predicate FilledFrom(db: Database, before: Cache, items: seq<ScanItem>, after: Cache) {
    forall k :: k in after && k !in before ==>
      exists i :: 0 <= i < |items| && Eligible(items[i]) && KeyOf(items[i]) == k && after[k] == Fresh(db, items[i])
  }

  /** One iteration keeps `FilledFrom`: a slot it adds is filled from the
      database. */
  lemma FilledSnoc(db: Database, cache: Cache, prefix: seq<ScanItem>, item: ScanItem, st: ScanState, r: ScanState)
    requires FilledFrom(db, cache, prefix, st.cache)
    requires r == if Eligible(item) then ScanStep(db, st, item) else st
    ensures FilledFrom(db, cache, prefix + [item], r.cache)
  {
    var items := prefix + [item];
    forall k | k in r.cache && k !in cache
      ensures exists i :: 0 <= i < |items| && Eligible(items[i]) && KeyOf(items[i]) == k && r.cache[k] == Fresh(db, items[i])
    {
      if k in st.cache {
        var i :| 0 <= i < |prefix| && Eligible(prefix[i]) && KeyOf(prefix[i]) == k && st.cache[k] == Fresh(db, prefix[i]);
        assert items[i] == prefix[i];
      } else {
        assert items[|prefix|] == item;
      }
    }
  }

  /** The items of `xs` whose slot in `cache` holds a record with verdict
      `verdict`, in order. */
  function Judged(cache: Cache, xs: seq<ScanItem>, verdict: bool): (r: seq<ScanItem>)
    ensures forall x :: x in r ==> x in xs && KeyOf(x) in cache && cache[KeyOf(x)].verified == verdict
  {
    if xs == [] then []
    else
      var last := xs[|xs| - 1];
      Judged(cache, xs[..|xs| - 1], verdict)
        + (if KeyOf(last) in cache && cache[KeyOf(last)].verified == verdict then [last] else [])
  }

  lemma JudgedSnoc(cache: Cache, xs: seq<ScanItem>, x: ScanItem, verdict: bool)
    ensures Judged(cache, xs + [x], verdict)
      == Judged(cache, xs, verdict) + (if KeyOf(x) in cache && cache[KeyOf(x)].verified == verdict then [x] else [])
  {
    assert (xs + [x])[..|xs|] == xs;
  }

  /** The verified entries are, in order, the checked items of `items` whose
      slot in `cache` is verified, and the unverified entries the others. */
  predicate SortedByVerdict(cache: Cache, items: seq<ScanItem>, verified: seq<VerifiedEntry>, unverified: seq<UnverifiedEntry>) {
    && Merge.KeysOf(verified, VerifiedContent) == Merge.KeysOf(Judged(cache, Checked(items), true), ItemContent)
    && Merge.KeysOf(unverified, UnverifiedContent) == Merge.KeysOf(Judged(cache, Checked(items), false), ItemContent)
  }

  /** Replaying a cache sorts the checked items by the verdict of their slot. */
  lemma {:induction false} ReplaySorts(cache: Cache, items: seq<ScanItem>)
    requires CheckedKeys(items) <= cache.Keys
    ensures var rep := Replay(cache, items);
      SortedByVerdict(cache, items, rep.verified, rep.unverified)
    decreases |items|
  {
    if items != [] {
      var prefix := items[..|items| - 1];
      var item := items[|items| - 1];
      CheckedKeysSnoc(prefix, item);
      CheckedSnoc(prefix, item);
      assert items == prefix + [item];
      ReplaySorts(cache, prefix);
      if Eligible(item) {
        assert Replay(cache, items) == Record(Replay(cache, prefix), item, cache[KeyOf(item)]);
        RecordSorts(cache, prefix, item, Replay(cache, prefix));
      } else {
        assert Replay(cache, items) == Replay(cache, prefix);
        assert Checked(items) == Checked(prefix);
      }
    }
  }

  /** Recording a checked item keeps the report sorted by verdict. */
  lemma RecordSorts(cache: Cache, prefix: seq<ScanItem>, item: ScanItem, rep: Report)
    requires Eligible(item) && KeyOf(item) in cache
    requires SortedByVerdict(cache, prefix, rep.verified, rep.unverified)
    ensures var rep' := Record(rep, item, cache[KeyOf(item)]);
      SortedByVerdict(cache, prefix + [item], rep'.verified, rep'.unverified)
  {
    var rep' := Record(rep, item, cache[KeyOf(item)]);
    CheckedSnoc(prefix, item);
    RecordContents(rep, item, cache[KeyOf(item)]);
    SortedSnoc(cache, Checked(prefix), item, rep.verified, rep.unverified, rep'.verified, rep'.unverified);
  }

  /** The content `Record` appends to the list its verdict selects. */
  lemma RecordContents(rep: Report, item: ScanItem, rec: Verification)
    ensures var r := Record(rep, item, rec);
      && Merge.KeysOf(r.verified, VerifiedContent)
         == Merge.KeysOf(rep.verified, VerifiedContent) + (if rec.verified then [item.content] else [])
      && Merge.KeysOf(r.unverified, UnverifiedContent)
         == Merge.KeysOf(rep.unverified, UnverifiedContent) + (if rec.verified then [] else [item.content])
  {
    var r := Record(rep, item, rec);
    if rec.verified {
      var e := r.verified[|rep.verified|];
      assert r.verified == rep.verified + [e];
      Merge.KeysOfAppend(rep.verified, [e], VerifiedContent);
    } else {
      var e := r.unverified[|rep.unverified|];
      assert r.unverified == rep.unverified + [e];
      Merge.KeysOfAppend(rep.unverified, [e], UnverifiedContent);
    }
  }

  /** Appending a checked item to the list its slot's verdict selects keeps
      the lists sorted by verdict. */
  lemma SortedSnoc(
    cache: Cache, done: seq<ScanItem>, item: ScanItem,
    verified: seq<VerifiedEntry>, unverified: seq<UnverifiedEntry>,
    verified': seq<VerifiedEntry>, unverified': seq<UnverifiedEntry>)
    requires KeyOf(item) in cache
    requires Merge.KeysOf(verified, VerifiedContent) == Merge.KeysOf(Judged(cache, done, true), ItemContent)
    requires Merge.KeysOf(unverified, UnverifiedContent) == Merge.KeysOf(Judged(cache, done, false), ItemContent)
    requires Merge.KeysOf(verified', VerifiedContent)
      == Merge.KeysOf(verified, VerifiedContent) + (if cache[KeyOf(item)].verified then [item.content] else [])
    requires Merge.KeysOf(unverified', UnverifiedContent)
      == Merge.KeysOf(unverified, UnverifiedContent) + (if cache[KeyOf(item)].verified then [] else [item.content])
    ensures Merge.KeysOf(verified', VerifiedContent) == Merge.KeysOf(Judged(cache, done + [item], true), ItemContent)
    ensures Merge.KeysOf(unverified', UnverifiedContent) == Merge.KeysOf(Judged(cache, done + [item], false), ItemContent)
  {
    JudgedKeysSnoc(cache, done, item, true);
    JudgedKeysSnoc(cache, done, item, false);
    if cache[KeyOf(item)].verified {
      assert Merge.KeysOf(verified', VerifiedContent) == Merge.KeysOf(verified, VerifiedContent) + [item.content];
      assert Merge.KeysOf(unverified', UnverifiedContent) == Merge.KeysOf(unverified, UnverifiedContent);
    } else {
      assert Merge.KeysOf(verified', VerifiedContent) == Merge.KeysOf(verified, VerifiedContent);
      assert Merge.KeysOf(unverified', UnverifiedContent) == Merge.KeysOf(unverified, UnverifiedContent) + [item.content];
    }
  }

  /** The contents of the items judged `verdict` grow by the item's content
      exactly when its slot holds that verdict. */
  lemma JudgedKeysSnoc(cache: Cache, done: seq<ScanItem>, item: ScanItem, verdict: bool)
    requires KeyOf(item) in cache
    ensures Merge.KeysOf(Judged(cache, done + [item], verdict), ItemContent)
      == Merge.KeysOf(Judged(cache, done, verdict), ItemContent)
         + (if cache[KeyOf(item)].verified == verdict then [item.content] else [])
  {
    JudgedSnoc(cache, done, item, verdict);
    if cache[KeyOf(item)].verified == verdict {
      Merge.KeysOfAppend(Judged(cache, done, verdict), [item], ItemContent);
    } else {
      assert Judged(cache, done + [item], verdict) == Judged(cache, done, verdict);
    }
  }

  /** The dictionary `enhanced_scan_with_rag` and `verify_citations_with_rag` return. */
  datatype RagResults = RagResults(
    verified: seq<VerifiedEntry>, unverified: seq<UnverifiedEntry>,
    ragContext: string, totalChecked: nat, verificationRate: real)

  /** The results account for exactly the items of `items` not skipped: each
      lands in one of the two lists (as a multiset of contents), every
      unverified entry gives the not-found reason, and the rate is the
      verified share of the two lists. */
  predicate ResultsCover(items: seq<ScanItem>, res: RagResults) {
    && res.totalChecked == |res.verified| + |res.unverified| == |Checked(items)|
    && multiset(Merge.KeysOf(res.verified, VerifiedContent)) + multiset(Merge.KeysOf(res.unverified, UnverifiedContent))
       == multiset(Merge.KeysOf(Checked(items), ItemContent))
    && (forall e :: e in res.unverified ==> e.reason == NotFoundReason)
    && res.verificationRate == Rate(|res.verified|, |res.unverified|)
  }

  /** The scan's answer together with the cache afterwards and the queries sent. */
  datatype ScanOutcome = ScanOutcome(results: RagResults, cache: Cache, queries: seq<Query>)

  function JoinLines(lines: seq<string>): string {
    if lines == [] then ""
    else if |lines| == 1 then lines[0]
    else JoinLines(lines[..|lines| - 1]) + "\n" + lines[|lines| - 1]
  }

  /** The verified share of the checked citations, as a percentage. */
  function Rate(verified: nat, unverified: nat): (r: real)
    ensures 0.0 <= r <= 100.0
    ensures r == 0.0 <==> verified == 0
    ensures r == 100.0 <==> verified > 0 && unverified == 0
    ensures r * (if verified + unverified > 0 then verified + unverified else 1) as real == 100.0 * verified as real
  {
    var total := if verified + unverified > 1 then verified + unverified else 1;
    RateBounds(verified, unverified, total);
    verified as real / total as real * 100.0
  }

  lemma RateBounds(verified: nat, unverified: nat, total: nat)
    requires total == if verified + unverified > 1 then verified + unverified else 1
    ensures var r := verified as real / total as real * 100.0;
      && 0.0 <= r <= 100.0
      && (r == 0.0 <==> verified == 0)
      && (r == 100.0 <==> verified > 0 && unverified == 0)
  {
    var q := verified as real / total as real;
    assert q * total as real == verified as real;
    if unverified > 0 {
      assert verified < total;
      assert q < 1.0;
    }
  }

  /** The returned dictionary of a finished loop. */
  function Summarize(rep: Report): (r: RagResults)
    ensures r.verified == rep.verified && r.unverified == rep.unverified
    ensures r.totalChecked == |rep.verified| + |rep.unverified|
    ensures 0.0 <= r.verificationRate <= 100.0
    ensures r.verificationRate == 0.0 <==> |rep.verified| == 0
    ensures r.verificationRate == 100.0 <==> |rep.verified| > 0 && |rep.unverified| == 0
    ensures r.verificationRate == Rate(|rep.verified|, |rep.unverified|)
  {
    RagResults(rep.verified, rep.unverified, JoinLines(rep.context),
      |rep.verified| + |rep.unverified|, Rate(|rep.verified|, |rep.unverified|))
  }

  /** The examined prefix: the first fifteen citations, or all of them. */
  function Examined(items: seq<ScanItem>): (r: seq<ScanItem>)
    ensures |r| <= ScanLimit && r <= items
    ensures |items| <= ScanLimit ==> r == items
    ensures |items| > ScanLimit ==> r == items[..ScanLimit]
  {
    if |items| <= ScanLimit then items else items[..ScanLimit]
  }

  /** `enhanced_scan_with_rag`. */
  function EnhancedScan(db: Database, cache: Cache, items: seq<ScanItem>): (o: ScanOutcome)
    ensures o.results.totalChecked == |Checked(Examined(items))| <= ScanLimit
    ensures o.cache.Keys == cache.Keys + CheckedKeys(Examined(items))
    ensures forall k :: k in cache ==> o.cache[k] == cache[k]
    ensures ResultsCover(Examined(items), o.results)
    ensures FilledFrom(db, cache, Examined(items), o.cache)
    ensures SortedByVerdict(o.cache, Examined(items), o.results.verified, o.results.unverified)
  {
    var st := ScanItems(db, cache, Examined(items));
    CheckedLength(Examined(items));
    ScanReadsFinalCache(db, cache, Examined(items));
    ReplaySorts(st.cache, Examined(items));
    ScanOutcome(Summarize(st.report), st.cache, st.queries)
  }

  lemma {:induction false} CheckedLength(items: seq<ScanItem>)
    ensures |Checked(items)| <= |items|
    decreases |items|
  {
    if items != [] {
      CheckedLength(items[..|items| - 1]);
    }
  }

  /** Citations after the fifteenth are never looked at. */
  lemma ScanIgnoresPastLimit(db: Database, cache: Cache, items: seq<ScanItem>, more: seq<ScanItem>)
    requires |items| >= ScanLimit
    ensures EnhancedScan(db, cache, items + more) == EnhancedScan(db, cache, items)
  {
    ExaminedIgnoresPastLimit(items, more);
  }

  lemma ExaminedIgnoresPastLimit(items: seq<ScanItem>, more: seq<ScanItem>)
    requires |items| >= ScanLimit
    ensures Examined(items + more) == Examined(items)
  {
    assert (items + more)[..ScanLimit] == items[..ScanLimit];
  }

  /** `verify_citations_with_rag`: an empty list is answered without a scan. */
  function VerifyCitationsWithRag(db: Database, cache: Cache, items: seq<ScanItem>): (o: ScanOutcome)
    ensures items == [] ==>
      && o.results == RagResults([], [], "No citations found to verify.", 0, 0.0)
      && o.cache == cache && o.queries == []
    ensures items != [] ==> o == EnhancedScan(db, cache, items)
    ensures o.results.totalChecked == |o.results.verified| + |o.results.unverified| <= ScanLimit
    ensures forall k :: k in cache ==> k in o.cache && o.cache[k] == cache[k]
    ensures o.cache.Keys == cache.Keys + CheckedKeys(Examined(items))
    ensures ResultsCover(Examined(items), o.results)
    ensures FilledFrom(db, cache, Examined(items), o.cache)
    ensures SortedByVerdict(o.cache, Examined(items), o.results.verified, o.results.unverified)
  {
    if items == [] then ScanOutcome(RagResults([], [], "No citations found to verify.", 0, 0.0), cache, [])
    else EnhancedScan(db, cache, items)
  }
}

=== FILE: seqs.dfy ===
/** The two "stop at the first hit" searches the source performs: a `for … break`
    over a result list, and `re.search`, which tries each start offset in turn. */
module Seqs {
  import opened Maybe

  /** Index of the first element accepted by `p`, as a `for x in xs: if p(x): … break` finds it. */
  function FirstIndex<T>(xs: seq<T>, p: T -> bool): (r: Option<nat>)
    ensures r.Some? ==> r.value < |xs| && p(xs[r.value])
    ensures r.Some? ==> forall j :: 0 <= j < r.value ==> !p(xs[j])
    ensures r.None? <==> forall j :: 0 <= j < |xs| ==> !p(xs[j])
  {
    if |xs| == 0 then None
    else if p(xs[0]) then Some(0)
    else
      match FirstIndex(xs[1..], p)
      case None => None
      case Some(k) => Some(k + 1)
  }

  /** The first defined value of `f` over the positions `lo .. hi - 1`, trying
      them in increasing order. */
  function FirstSome<R>(lo: nat, hi: nat, f: nat -> Option<R>): (r: Option<R>)
    ensures r.Some? ==> exists i :: lo <= i < hi && f(i) == r && forall j :: lo <= j < i ==> f(j).None?
    ensures r.None? <==> (forall j :: lo <= j < hi ==> f(j).None?)
    decreases hi - lo
  {
    if lo >= hi then None
    else if f(lo).Some? then f(lo)
    else FirstSome(lo + 1, hi, f)
  }

  /** A position where `f` is defined and before which it never is, is the one `FirstSome` picks. */
  lemma FirstSomeAt<R>(lo: nat, hi: nat, f: nat -> Option<R>, i: nat)
    requires lo <= i < hi && f(i).Some?
    requires forall j :: lo <= j < i ==> f(j).None?
    ensures FirstSome(lo, hi, f) == f(i)
  {
  }
}

=== FILE: strings.dfy ===
/** Character classes and string operations of the Python runtime that the
    citation engine relies on: `str.isspace`, the `\d` and `[a-z]` regex
    classes, `str.lower`, `str.strip`, `str.replace(" ", "")`, the `in`
    substring test and decimal formatting of integers. */
module Strings {

  /** Python's `str.isspace`, which is also the set of characters `\s`
      matches in a `str` pattern. */
  predicate IsSpace(c: char) {
    || ('\t' <= c <= '\r')
    || ('\U{1C}' <= c <= ' ')
    || c == '\U{85}' || c == '\U{A0}' || c == '\U{1680}'
    || ('\U{2000}' <= c <= '\U{200A}')
    || c == '\U{2028}' || c == '\U{2029}' || c == '\U{202F}'
    || c == '\U{205F}' || c == '\U{3000}'
  }

  /** The ASCII digits, which is what `\d` matches in the citations the engine sees. */
  predicate IsDigit(c: char) {
    '0' <= c <= '9'
  }

  /** The regex class `[a-z]`. */
  predicate IsLowerAlpha(c: char) {
    'a' <= c <= 'z'
  }

  predicate AllDigits(s: string) {
    forall i :: 0 <= i < |s| ==> IsDigit(s[i])
  }

  predicate AllLowerAlpha(s: string) {
    forall i :: 0 <= i < |s| ==> IsLowerAlpha(s[i])
  }

  function LowerChar(c: char): char {
    if 'A' <= c <= 'Z' then (c as int + 32) as char else c
  }

  /** `str.lower`, restricted to the ASCII letters. */
  function Lower(s: string): (r: string)
    ensures |r| == |s|
    ensures forall i :: 0 <= i < |s| ==> r[i] == LowerChar(s[i])
    ensures forall i :: 0 <= i < |r| ==> !('A' <= r[i] <= 'Z')
  {
    seq(|s|, i requires 0 <= i < |s| => LowerChar(s[i]))
  }

  lemma LowerAppend(a: string, b: string)
    ensures Lower(a + b) == Lower(a) + Lower(b)
  {
    assert forall i :: 0 <= i < |a + b| ==> Lower(a + b)[i] == (Lower(a) + Lower(b))[i];
  }

  /** Lower-casing leaves a string without upper-case ASCII letters unchanged. */
  lemma LowerNoUpper(s: string)
    requires forall i :: 0 <= i < |s| ==> !('A' <= s[i] <= 'Z')
    ensures Lower(s) == s
  {
  }

  /** `s.replace(" ", "")`: every U+0020 space removed, everything else kept in order. */
  function RemoveSpaces(s: string): (r: string)
    ensures ' ' !in r
    ensures |r| <= |s|
    ensures multiset(r) == multiset(s)[' ' := 0]
    ensures ' ' !in s ==> r == s
    ensures |s| == 1 ==> r == (if s[0] == ' ' then [] else s)
  {
    DropSpacesFacts(s);
    DropSpaces(s)
  }

  /** The character-by-character definition behind `RemoveSpaces`. */
  function DropSpaces(s: string): string
    decreases |s|
  {
    if |s| == 0 then [] else (if s[0] == ' ' then [] else [s[0]]) + DropSpaces(s[1..])
  }

  lemma {:induction false} DropSpacesFacts(s: string)
    ensures var r := DropSpaces(s);
      && ' ' !in r && |r| <= |s|
      && multiset(r) == multiset(s)[' ' := 0]
      && (' ' !in s ==> r == s)
      && (|s| == 1 ==> r == (if s[0] == ' ' then [] else s))
    decreases |s|
  {
    if |s| > 0 {
      DropSpacesFacts(s[1..]);
      assert s == [s[0]] + s[1..];
    }
  }

  lemma {:induction false} DropSpacesAppend(a: string, b: string)
    ensures DropSpaces(a + b) == DropSpaces(a) + DropSpaces(b)
    decreases |a|
  {
    if |a| == 0 {
      assert a + b == b;
    } else {
      var kept := if a[0] == ' ' then [] else [a[0]];
      assert (a + b)[1..] == a[1..] + b;
      assert DropSpaces(a + b) == kept + DropSpaces(a[1..] + b);
      assert DropSpaces(a) == kept + DropSpaces(a[1..]);
      DropSpacesAppend(a[1..], b);
    }
  }

  /** Removing spaces works piece by piece: with the one-character case in the
      contract of `RemoveSpaces`, the kept characters stay in their order. */
  lemma RemoveSpacesAppend(a: string, b: string)
    ensures RemoveSpaces(a + b) == RemoveSpaces(a) + RemoveSpaces(b)
  {
    DropSpacesAppend(a, b);
  }

  /** `s.rstrip(chars)` for the set of characters `p` accepts. */
  function TrimEnd(s: string, p: char -> bool): (r: string)
    ensures |r| <= |s| && r == s[..|r|]
    ensures forall i :: |r| <= i < |s| ==> p(s[i])
    ensures r != [] ==> !p(r[|r| - 1])
  {
    if |s| > 0 && p(s[|s| - 1]) then TrimEnd(s[..|s| - 1], p) else s
  }

  /** `s` neither starts nor ends with whitespace. */
  predicate NoOuterSpace(s: string) {
    s != [] ==> !IsSpace(s[0]) && !IsSpace(s[|s| - 1])
  }

  /** `r` is `s[i..j]`, and everything of `s` outside it is whitespace. */
  predicate StrippedAt(s: string, r: string, i: int, j: int) {
    && 0 <= i <= j <= |s| && r == s[i..j]
    && (forall k :: 0 <= k < i ==> IsSpace(s[k]))
    && (forall k :: j <= k < |s| ==> IsSpace(s[k]))
  }

  /** `s.strip()`: leading and trailing whitespace removed. */
  function Strip(s: string): (r: string)
    ensures exists i, j :: StrippedAt(s, r, i, j)
    ensures NoOuterSpace(r)
  {
    var a := RunEnd(s, 0, IsSpace);
    var b := RunStart(s, |s|, IsSpace);
    var e := if a <= b then b else a;
    assert StrippedAt(s, s[a..e], a, e);
    s[a..e]
  }

  /** Python's `needle in hay` on strings. */
  predicate Contains(hay: string, needle: string)
    decreases |hay|
  {
    needle <= hay || (|hay| > 0 && Contains(hay[1..], needle))
  }

  /** `needle` occurs in `hay` starting at offset `i`. */
  predicate OccursAt(hay: string, needle: string, i: int) {
    0 <= i <= |hay| - |needle| && hay[i..i + |needle|] == needle
  }

  /** `Contains` holds exactly when the needle occurs at some offset of the hay. */
  lemma {:induction false} ContainsIffOccurs(hay: string, needle: string)
    ensures Contains(hay, needle) <==> exists i :: OccursAt(hay, needle, i)
    decreases |hay|
  {
    if needle <= hay {
      assert OccursAt(hay, needle, 0);
    } else if |hay| == 0 {
    } else {
      ContainsIffOccurs(hay[1..], needle);
      if Contains(hay[1..], needle) {
        var i :| OccursAt(hay[1..], needle, i);
        assert OccursAt(hay, needle, i + 1);
      }
      if exists i :: OccursAt(hay, needle, i) {
        var i :| OccursAt(hay, needle, i);
        assert i != 0;
        assert OccursAt(hay[1..], needle, i - 1);
      }
    }
  }

  /** A piece of a piece of `hay` is a piece of `hay`. */
  lemma ContainsTrans(hay: string, mid: string, needle: string)
    requires Contains(hay, mid) && Contains(mid, needle)
    ensures Contains(hay, needle)
  {
    ContainsIffOccurs(hay, mid);
    ContainsIffOccurs(mid, needle);
    var i :| OccursAt(hay, mid, i);
    var j :| OccursAt(mid, needle, j);
    forall k | 0 <= k < |needle| ensures hay[i + j + k] == needle[k] {
      assert needle[k] == mid[j..j + |needle|][k] == mid[j + k];
      assert mid[j + k] == hay[i..i + |mid|][j + k];
    }
    assert hay[i + j..i + j + |needle|] == needle;
    assert OccursAt(hay, needle, i + j);
    ContainsIffOccurs(hay, needle);
  }

  /** End of the longest run of characters accepted by `p` that starts at `i`. */
  function RunEnd(s: string, i: nat, p: char -> bool): (j: nat)
    requires i <= |s|
    ensures i <= j <= |s|
    ensures forall k :: i <= k < j ==> p(s[k])
    ensures j < |s| ==> !p(s[j])
    decreases |s| - i
  {
    if i < |s| && p(s[i]) then RunEnd(s, i + 1, p) else i
  }

  /** Start of the longest run of characters accepted by `p` that ends at `j`. */
  function RunStart(s: string, j: nat, p: char -> bool): (i: nat)
    requires j <= |s|
    ensures i <= j
    ensures forall k :: i <= k < j ==> p(s[k])
    ensures i > 0 ==> !p(s[i - 1])
  {
    if j > 0 && p(s[j - 1]) then RunStart(s, j - 1, p) else j
  }

  /** A run that ends where `p` first fails is the one `RunEnd` finds. */
  lemma RunEndIs(s: string, i: nat, j: nat, p: char -> bool)
    requires i <= j <= |s|
    requires forall k :: i <= k < j ==> p(s[k])
    requires j < |s| ==> !p(s[j])
    ensures RunEnd(s, i, p) == j
  {
  }

  function DigitChar(d: nat): (c: char)
    requires d < 10
    ensures IsDigit(c)
  {
    ('0' as int + d) as char
  }

  function DigitValue(c: char): nat
    requires IsDigit(c)
  {
    c as int - '0' as int
  }

  /** Python's `f"{n}"` for a non-negative integer: its decimal digits. */
  function NatToString(n: nat): (s: string)
    ensures |s| >= 1 && AllDigits(s)
    ensures |s| > 1 ==> s[0] != '0'
  {
    if n < 10 then [DigitChar(n)] else NatToString(n / 10) + [DigitChar(n % 10)]
  }

  /** The value of a string of decimal digits (Python's `int(s)`). */
  function ParseDigits(s: string): nat
    requires AllDigits(s)
  {
    if |s| == 0 then 0 else 10 * ParseDigits(s[..|s| - 1]) + DigitValue(s[|s| - 1])
  }

  /** Reading back the decimal form of `n` gives `n`. */
  lemma {:induction false} NatToStringRoundTrip(n: nat)
    ensures ParseDigits(NatToString(n)) == n
  {
    if n >= 10 {
      NatToStringRoundTrip(n / 10);
      var s := NatToString(n);
      assert s[..|s| - 1] == NatToString(n / 10);
    }
  }
}

=== FILE: synthesis.dfy ===
/** The second and third analysis stages of the detector, reduced to what
    they decide from the verification results: whether the model is consulted
    at all, and how the final verdict overrides the model when citations went
    unverified.

    The language model is not modelled. Its answer enters as a parameter: a
    failure (the call raised), or the reply text together with what the three
    regular expressions read from it. */
module Synthesis {
  import opened Maybe
  import opened Strings
  import opened Scan

  /** Risk levels; `Unknown` is what the detector reports when the model named
      none and nothing overrides it. */
  datatype Risk = Low | Medium | High | Critical | Unknown

  /** A level the model can name: `RISK: low|medium|high|critical`. */
  type NamedRisk = r: Risk | r != Unknown witness Low

  /** The model's answer as the detector reads it. */
  datatype Reply =
    | Failed(error: string)
    | Replied(
        text: string,
        /** The digits after `CONFIDENCE:`, read as a number. */
        confidence: Option<nat>,
        /** The level after `RISK:`, lower-cased. */
        risk: Option<NamedRisk>,
        /** The rest of the line after `RECOMMENDATION:`. */
        recommendation: Option<string>)

  /** The dictionary `stage2_hallucination_analysis` returns;
      `hallucinationDetected` is absent when the model call failed. */
  datatype Stage2Result = Stage2Result(notes: string, hallucinationDetected: Option<bool>)

  /** `stage2_hallucination_analysis`: with nothing unverified the model is
      not consulted and the notes record that every citation was verified;
      otherwise the model's analysis is taken as it is, and a hallucination is
      reported. */
  function Stage2(rag: RagResults, reply: Reply): (r: Stage2Result)
    ensures r.hallucinationDetected == Some(false) <==> |rag.unverified| == 0
    ensures r.hallucinationDetected == Some(true) <==> |rag.unverified| > 0 && reply.Replied?
    ensures |rag.unverified| > 0 && reply.Replied? ==> r.notes == reply.text
    ensures |rag.unverified| > 0 && reply.Failed? ==> r.notes == "Analysis failed: " + reply.error
  {
    if |rag.unverified| == 0 then
      Stage2Result(
        "All " + NatToString(|rag.verified|)
          + " case citations were verified against CourtListener. The cited cases exist in legal databases.",
        Some(false))
    else
      match reply
      case Replied(text, _, _, _) => Stage2Result(text, Some(true))
      case Failed(error) => Stage2Result("Analysis failed: " + error, None)
  }

  /** With nothing unverified the second stage's answer does not depend on the
      model: the model is never called. */
  lemma Stage2ShortCircuit(rag: RagResults, reply: Reply, reply': Reply)
    requires |rag.unverified| == 0
    ensures Stage2(rag, reply) == Stage2(rag, reply')
  {
  }

  /** The risk the third stage imposes: critical when unverified citations
      outnumber verified ones, high when there is any, low otherwise. */
  function ForcedRisk(verified: nat, unverified: nat): (r: Risk)
    ensures r == Critical <==> unverified > verified
    ensures r == High <==> 0 < unverified <= verified
    ensures r == Low <==> unverified == 0
  {
    if unverified > 0 then
      if unverified > verified then Critical else High
    else Low
  }

  /** The confidence the model is allowed when citations went unverified: the
      verified percentage, rounded down, and never above 40. */
  function ConfidenceCap(verified: nat, unverified: nat): (c: nat)
    requires unverified > 0
    ensures c <= 40
    ensures c * (verified + unverified) <= 100 * verified
    ensures c < 40 ==> 100 * verified < (c + 1) * (verified + unverified)
  {
    var share := (100 * verified) / (verified + unverified);
    if share < 40 then share else 40
  }

  function Min(a: nat, b: nat): nat {
    if a <= b then a else b
  }

  const DefaultConfidence: nat := 50
  const FailedConfidence: nat := 20
  const ReliableRecommendation: string := "Document appears reliable based on citation verification."
  const IncompleteRecommendation: string := "Analysis incomplete - verify all citations manually."

  /** The recommendation imposed when `unverified` citations could not be verified. */
  function DoNotRely(unverified: nat): string {
    "DO NOT RELY ON THIS DOCUMENT - " + NatToString(unverified)
      + " citation(s) could not be verified in CourtListener and may be fabricated."
  }

  /** The dictionary `stage3_final_synthesis` returns; the verification rate
      is absent after a failed model call. */
  datatype Stage3Result = Stage3Result(
    narrative: string, confidence: nat, risk: Risk, recommendation: string,
    hallucinationDetected: bool, verificationRate: Option<real>)

  /** `stage3_final_synthesis`: when some citation is unverified the risk, the
      recommendation and a cap on the confidence are imposed whatever the
      model said; when all are verified the model's own verdict passes through,
      with defaults for what it left out. A failed model call falls back to
      the imposed risk and a fixed low confidence. */
  function Stage3(rag: RagResults, reply: Reply): (r: Stage3Result)
    ensures r.hallucinationDetected <==> |rag.unverified| > 0
    ensures |rag.unverified| > 0 ==> r.risk == ForcedRisk(|rag.verified|, |rag.unverified|) && r.confidence <= 40
    ensures reply.Failed? ==>
      && r.risk == ForcedRisk(|rag.verified|, |rag.unverified|)
      && r.confidence == (if |rag.unverified| > 0 then FailedConfidence else DefaultConfidence)
      && r.recommendation == IncompleteRecommendation
      && r.narrative == "Synthesis failed: " + reply.error
      && r.verificationRate.None?
    ensures reply.Replied? ==> r.narrative == reply.text && r.verificationRate == Some(rag.verificationRate)
    ensures reply.Replied? && |rag.unverified| > 0 ==>
      && r.recommendation == DoNotRely(|rag.unverified|)
      && r.confidence <= reply.confidence.GetOr(DefaultConfidence)
      && r.confidence == Min(reply.confidence.GetOr(DefaultConfidence), ConfidenceCap(|rag.verified|, |rag.unverified|))
    ensures reply.Replied? && |rag.unverified| == 0 ==>
      && r.risk == (if reply.risk.Some? then reply.risk.value else Unknown)
      && r.confidence == reply.confidence.GetOr(DefaultConfidence)
      && r.recommendation == (if reply.recommendation.Some? then Strip(reply.recommendation.value) else ReliableRecommendation)
  {
    var v := |rag.verified|;
    var u := |rag.unverified|;
    var forced := ForcedRisk(v, u);
    match reply
    case Failed(error) =>
      Stage3Result(
        "Synthesis failed: " + error,
        if u > 0 then FailedConfidence else DefaultConfidence,
        forced, IncompleteRecommendation, u > 0, None)
    case Replied(text, confidence, risk, recommendation) =>
      var modelConfidence := confidence.GetOr(DefaultConfidence);
      var finalRisk := if u > 0 then forced else if risk.Some? then risk.value else Unknown;
      var finalConfidence := if u > 0 then Min(modelConfidence, ConfidenceCap(v, u)) else modelConfidence;
      var finalRecommendation :=
        if u > 0 then DoNotRely(u)
        else if recommendation.Some? then Strip(recommendation.value)
        else ReliableRecommendation;
      Stage3Result(text, finalConfidence, finalRisk, finalRecommendation, u > 0, Some(rag.verificationRate))
  }

  /** With an unverified citation, the verdict does not depend on what the
      model said: any two replies give the same risk, recommendation and
      hallucination flag. */
  lemma OverrideIgnoresModel(rag: RagResults, reply: Reply, reply': Reply)
    requires |rag.unverified| > 0 && reply.Replied? && reply'.Replied?
    ensures var r := Stage3(rag, reply);
      var r' := Stage3(rag, reply');
      r.risk == r'.risk && r.recommendation == r'.recommendation
      && r.hallucinationDetected == r'.hallucinationDetected
  {
  }

  /** The imposed risk is never below high once a citation is unverified,
      whether or not the model answered. */
  lemma OverrideSeverity(rag: RagResults, reply: Reply)
    requires |rag.unverified| > 0
    ensures var r := Stage3(rag, reply);
      r.risk == High || r.risk == Critical
  {
  }

  /** The capped confidence never exceeds the verified percentage: a document
      with no verified citation gets confidence 0 from a successful synthesis. */
  lemma NothingVerifiedNoConfidence(rag: RagResults, reply: Reply)
    requires |rag.verified| == 0 && |rag.unverified| > 0 && reply.Replied?
    ensures Stage3(rag, reply).confidence == 0
  {
    assert (100 * |rag.verified|) / (|rag.verified| + |rag.unverified|) == 0;
  }

  /** The second and third stages agree on whether a hallucination was found,
      whenever the second stage says. */
  lemma StagesAgree(rag: RagResults, reply2: Reply, reply3: Reply)
    ensures var s2 := Stage2(rag, reply2);
      s2.hallucinationDetected.Some? ==> s2.hallucinationDetected.value == Stage3(rag, reply3).hallucinationDetected
  {
  }

  /** The imposed recommendation states the number of unverified citations:
      the digits after its fixed opening read back as that number. */
  lemma DoNotRelyNamesCount(unverified: nat)
    ensures var digits := NatToString(unverified);
      var opening := "DO NOT RELY ON THIS DOCUMENT - ";
      && DoNotRely(unverified)[..|opening|] == opening
      && DoNotRely(unverified)[|opening|..|opening| + |digits|] == digits
      && ParseDigits(digits) == unverified
  {
    NatToStringRoundTrip(unverified);
  }
}

=== FILE: verification.dfy ===
/** The verification engine (`LegalRAG`): `verify_citation`, `verify_case_name`
    and their two match predicates.

    The reference database is a pair of functions from a query to the list of
    case records it answers with; a transport failure or a non-200 status is the
    empty list. The on-disk cache is a map threaded through as explicit state,
    keyed by the text that the source hashes into a file name. Each call also
    returns the queries it sent, so that "no query was made" can be stated. */
module Verification {
  import opened Maybe
  import opened Strings
  import Seqs
  import Patterns

  /** One case as the database returns it. The API may name a field in camel
      case or in snake case, so both spellings are kept. */
  datatype CaseRecord = CaseRecord(
    caseName: Option<string>, caseNameSnake: Option<string>,
    court: Option<string>,
    dateFiled: Option<string>, dateFiledSnake: Option<string>,
    docketNumber: Option<string>, docketNumberSnake: Option<string>,
    /** The `"citation"` entry; the empty list when it is absent. */
    citation: seq<string>,
    /** `json.dumps` of the record. */
    serialized: string)

  /** The two endpoints of the database. */
  datatype Database = Database(
    lookup: string -> seq<CaseRecord>,
    search: (string, nat) -> seq<CaseRecord>)

  datatype Query = Lookup(citation: string) | Search(text: string, pageSize: nat)

  /** The records a query is answered with. */
  function Answer(db: Database, q: Query): seq<CaseRecord> {
    match q
    case Lookup(c) => db.lookup(c)
    case Search(t, n) => db.search(t, n)
  }

  /** `search_method`: `"citation-lookup"` or `"search"`. */
  datatype Strategy = CitationLookup | SearchMatch

  /** A cached verification result; the two constructors are the dictionaries
      built by `verify_citation` and by `verify_case_name`. */
  datatype Verification =
    | CitationVerification(
        citation: string, verified: bool,
        caseName: Option<string>, court: Option<string>, dateFiled: Option<string>,
        docketNumber: Option<string>, strategy: Option<Strategy>, confidence: nat)
    | NameVerification(
        name: string, verified: bool,
        officialCitation: Option<seq<string>>, court: Option<string>, dateFiled: Option<string>,
        confidence: nat)
  {
    /** `result.get("case_name")`: a name result holds the name it was asked about. */
    function CaseNameField(): Option<string> {
      if CitationVerification? then caseName else Some(name)
    }

    /** `result.get("search_method")`: absent from a name result. */
    function StrategyField(): Option<Strategy> {
      if CitationVerification? then strategy else None
    }

    /** The records the engine itself produces: a verified record carries the
        confidence of the strategy that found it, an unverified one carries
        confidence 0 and no case details. */
    predicate WellFormed() {
      match this
      case CitationVerification(_, verified, caseName, court, dateFiled, docketNumber, strategy, confidence) =>
        if verified then
          (strategy == Some(CitationLookup) && confidence == 90) || (strategy == Some(SearchMatch) && confidence == 80)
        else
          strategy.None? && confidence == 0 && caseName.None? && court.None? && dateFiled.None? && docketNumber.None?
      case NameVerification(_, verified, officialCitation, court, dateFiled, confidence) =>
        if verified then officialCitation.Some? && confidence == 85
        else officialCitation.None? && confidence == 0 && court.None? && dateFiled.None?
    }
  }

  type Cache = map<string, Verification>

  predicate CacheWellFormed(cache: Cache) {
    forall k :: k in cache ==> cache[k].WellFormed()
  }

  /** What the strategies produce on a cache miss. */
  datatype Attempt = Attempt(record: Verification, queries: seq<Query>)

  /** The result of a call: the record returned, the cache afterwards and the queries sent. */
  datatype Outcome = Outcome(record: Verification, cache: Cache, queries: seq<Query>)

  /** Result-list sizes requested from the search endpoint. */
  const CitationPageSize: nat := 5
  const NamePageSize: nat := 10

  /** The cache slot of a citation: the citation text itself. */
  function CitationKey(citation: string): string {
    citation
  }

  /** The cache slot of a case name: the name behind a `"name:"` prefix. */
  function NameKey(name: string): string {
    "name:" + name
  }

  /** Python's `a or b` on two optional strings: `a` unless it is `None` or empty. */
  function Or(a: Option<string>, b: Option<string>): (r: Option<string>)
    ensures a.Some? && a.value != "" ==> r == a
    ensures !(a.Some? && a.value != "") ==> r == b
  {
    if a.Some? && a.value != "" then a else b
  }

  /** The quoted field query of the second strategy: `citation:"<citation>"`. */
  function QuotedQuery(citation: string): string {
    "citation:\"" + citation + "\""
  }

  /** `_citation_matches`: a search result matches a citation when the citation
      has the volume-reporter-page shape and both volume and page occur in the
      lower-cased serialized result, or when it has the "party v party" shape
      with parties longer than two letters that both occur there. The party
      shape is only consulted when the reporter test does not succeed. */
  predicate CitationMatches(citation: string, r: CaseRecord) {
    var c := Lower(citation);
    var text := Lower(r.serialized);
    || (match Patterns.FederalSearch(c)
        case Some((volume, page)) => Contains(text, volume) && Contains(text, page)
        case None => false)
    || (match Patterns.PartySearch(c, 1)
        case Some((p1, p2)) => |p1| > 2 && |p2| > 2 && Contains(text, p1) && Contains(text, p2)
        case None => false)
  }

  /** `_names_match`: with two parties of at least three letters around "v",
      both must occur in the result name; otherwise the whole query must. */
  predicate NamesMatch(query: string, resultName: string) {
    match Patterns.PartySearch(query, 3)
    case Some((p1, p2)) => Contains(resultName, p1) && Contains(resultName, p2)
    case None => Contains(resultName, query)
  }

  /** The lower-cased case name of a search result: the camel-case field when present,
      else the snake-case one, else the empty string. */
  function ResultName(r: CaseRecord): string {
    Lower(Or(r.caseName, r.caseNameSnake).GetOr(""))
  }

  /** The record `verify_citation` starts from and returns when nothing matches. */
  function CitationNotFound(citation: string): Verification {
    CitationVerification(citation, false, None, None, None, None, None, 0)
  }

  /** The record after a strategy accepted `r`. */
  function CitationFound(citation: string, r: CaseRecord, strategy: Strategy): Verification {
    CitationVerification(
      citation, true,
      Or(r.caseName, r.caseNameSnake), r.court, Or(r.dateFiled, r.dateFiledSnake),
      Or(r.docketNumber, r.docketNumberSnake),
      Some(strategy), if strategy == CitationLookup then 90 else 80)
  }

  /** The search strategies of `verify_citation`, tried after the exact lookup
      found nothing: the quoted search, replaced by the plain search when it
      returns nothing, and then the first result that matches the citation. */
  function CitationSearch(db: Database, citation: string): (a: Attempt)
    ensures a.record.CitationVerification? && a.record.citation == citation && a.record.WellFormed()
    ensures a.queries == [Search(QuotedQuery(citation), CitationPageSize)]
      + (if db.search(QuotedQuery(citation), CitationPageSize) == [] then [Search(citation, CitationPageSize)] else [])
    ensures var rs := Answer(db, a.queries[|a.queries| - 1]);
      && (a.record.verified <==> exists k :: 0 <= k < |rs| && CitationMatches(citation, rs[k]))
      && (a.record.verified ==>
            && a.record.confidence == 80 && a.record.strategy == Some(SearchMatch)
            && exists k :: 0 <= k < |rs| && CitationMatches(citation, rs[k])
                 && (forall j :: 0 <= j < k ==> !CitationMatches(citation, rs[j]))
                 && a.record == CitationFound(citation, rs[k], SearchMatch))
    ensures !a.record.verified ==> a.record == CitationNotFound(citation)
  {
    var quoted := db.search(QuotedQuery(citation), CitationPageSize);
    var queries := [Search(QuotedQuery(citation), CitationPageSize)]
      + (if |quoted| > 0 then [] else [Search(citation, CitationPageSize)]);
    var rs := if |quoted| > 0 then quoted else db.search(citation, CitationPageSize);
    assert rs == Answer(db, queries[|queries| - 1]);
    var accept := (r: CaseRecord) => CitationMatches(citation, r);
    assert forall k :: 0 <= k < |rs| ==> accept(rs[k]) == CitationMatches(citation, rs[k]);
    match Seqs.FirstIndex(rs, accept)
    case Some(k) => Attempt(CitationFound(citation, rs[k], SearchMatch), queries)
    case None => Attempt(CitationNotFound(citation), queries)
  }

  /** The strategies of `verify_citation`, run on a cache miss: the exact
      lookup, whose first record is accepted as it is, and otherwise the
      searches. */
  function CitationLadder(db: Database, citation: string): (a: Attempt)
    ensures a.record.CitationVerification? && a.record.citation == citation && a.record.WellFormed()
    ensures |a.queries| >= 1 && a.queries[0] == Lookup(citation)
    ensures db.lookup(citation) != [] ==>
      && a.queries == [Lookup(citation)]
      && a.record.verified && a.record.confidence == 90 && a.record.strategy == Some(CitationLookup)
      && a.record == CitationFound(citation, db.lookup(citation)[0], CitationLookup)
    ensures db.lookup(citation) == [] ==>
      var search := CitationSearch(db, citation);
      a.record == search.record && a.queries == [Lookup(citation)] + search.queries
    ensures !a.record.verified ==> a.record == CitationNotFound(citation)
  {
    var found := db.lookup(citation);
    if |found| > 0 then
      Attempt(CitationFound(citation, found[0], CitationLookup), [Lookup(citation)])
    else
      var search := CitationSearch(db, citation);
      Attempt(search.record, [Lookup(citation)] + search.queries)
  }

  /** The record `verify_case_name` starts from and returns when nothing matches. */
  function NameNotFound(name: string): Verification {
    NameVerification(name, false, None, None, None, 0)
  }

  /** The record after the name search accepted `r`. */
  function NameFound(name: string, r: CaseRecord): Verification {
    NameVerification(name, true, Some(r.citation), r.court, Or(r.dateFiled, r.dateFiledSnake), 85)
  }

  /** The name search of `verify_case_name`, run on a cache miss: one search
      for the name, and the first result whose case name matches it. */
  function NameLadder(db: Database, name: string): (a: Attempt)
    ensures a.record.NameVerification? && a.record.name == name && a.record.WellFormed()
    ensures a.queries == [Search(name, NamePageSize)]
    ensures var rs := db.search(name, NamePageSize);
      && (a.record.verified <==> exists k :: 0 <= k < |rs| && NamesMatch(Lower(name), ResultName(rs[k])))
      && (a.record.verified ==>
            exists k :: 0 <= k < |rs| && NamesMatch(Lower(name), ResultName(rs[k]))
              && (forall j :: 0 <= j < k ==> !NamesMatch(Lower(name), ResultName(rs[j])))
              && a.record == NameFound(name, rs[k]))
    ensures !a.record.verified ==> a.record == NameNotFound(name)
  {
    var rs := db.search(name, NamePageSize);
    var query := Lower(name);
    var accept := (r: CaseRecord) => NamesMatch(query, ResultName(r));
    assert forall k :: 0 <= k < |rs| ==> accept(rs[k]) == NamesMatch(query, ResultName(rs[k]));
    match Seqs.FirstIndex(rs, accept)
    case Some(k) => Attempt(NameFound(name, rs[k]), [Search(name, NamePageSize)])
    case None => Attempt(NameNotFound(name), [Search(name, NamePageSize)])
  }

  /** The cache discipline shared by both verifiers: a cached record is returned
      as it is, with no query; otherwise the strategies' record is written to
      the cache under `key` and returned. */
  function Memo(cache: Cache, key: string, miss: Attempt): (o: Outcome)
    ensures key in cache ==> o == Outcome(cache[key], cache, [])
    ensures key !in cache ==> o.record == miss.record && o.queries == miss.queries
    ensures o.cache.Keys == cache.Keys + {key}
    ensures key in o.cache && o.cache[key] == o.record
    ensures forall k :: k in cache ==> o.cache[k] == cache[k]
  {
    if key in cache then Outcome(cache[key], cache, [])
    else Outcome(miss.record, cache[key := miss.record], miss.queries)
  }

  /** `verify_citation`. */
  function VerifyCitation(db: Database, cache: Cache, citation: string): (o: Outcome)
    ensures CitationKey(citation) in cache ==> o.record == cache[CitationKey(citation)] && o.cache == cache && o.queries == []
    ensures CitationKey(citation) !in cache ==>
      && o.record.CitationVerification? && o.record.citation == citation && o.record.WellFormed()
      && o.queries != [] && o.queries[0] == Lookup(citation)
      && o.cache == cache[CitationKey(citation) := o.record]
    ensures CitationKey(citation) !in cache ==>
      o.record == CitationLadder(db, citation).record && o.queries == CitationLadder(db, citation).queries
    ensures CacheWellFormed(cache) ==> CacheWellFormed(o.cache) && o.record.WellFormed()
  {
    Memo(cache, CitationKey(citation), CitationLadder(db, citation))
  }

  /** `verify_case_name`. */
  function VerifyCaseName(db: Database, cache: Cache, name: string): (o: Outcome)
    ensures NameKey(name) in cache ==> o.record == cache[NameKey(name)] && o.cache == cache && o.queries == []
    ensures NameKey(name) !in cache ==>
      && o.record.NameVerification? && o.record.name == name && o.record.WellFormed()
      && o.queries == [Search(name, NamePageSize)]
      && o.cache == cache[NameKey(name) := o.record]
    ensures NameKey(name) !in cache ==>
      o.record == NameLadder(db, name).record && o.queries == NameLadder(db, name).queries
    ensures CacheWellFormed(cache) ==> CacheWellFormed(o.cache) && o.record.WellFormed()
  {
    Memo(cache, NameKey(name), NameLadder(db, name))
  }

  /** No reporter spelling contains the letter "v". */
  lemma SpellingsHaveNoV(r: string)
    requires r in Patterns.ReporterSpellings
    ensures 'v' !in r
  {
  }

  /** A citation in the extractor's volume-reporter-page form matches a search
      result exactly when both its volume and its page occur in the result's
      lower-cased serialization: the reporter itself is never compared, and the
      party test cannot fire because such a citation has no "v". */
  lemma CitationMatchesByVolumeAndPage(volume: string, reporter: string, page: string, r: CaseRecord)
    requires |volume| > 0 && AllDigits(volume) && |page| > 0 && AllDigits(page)
    requires Lower(reporter) in Patterns.ReporterSpellings
    ensures var text := Lower(r.serialized);
      CitationMatches(volume + " " + reporter + " " + page, r) <==> Contains(text, volume) && Contains(text, page)
  {
    var lr := Lower(reporter);
    LowerCaseCitation(volume, reporter, page);
    Patterns.FederalFindsCitation(volume, lr, page);
    SpellingsHaveNoV(lr);
    NoVInCaseCitation(volume, lr, page);
    Patterns.NoPartyWithoutV(volume + " " + lr + " " + page, 1);
  }

  /** Lower-casing a volume-reporter-page citation only lower-cases its reporter. */
  lemma LowerCaseCitation(volume: string, reporter: string, page: string)
    requires AllDigits(volume) && AllDigits(page)
    ensures Lower(volume + " " + reporter + " " + page) == volume + " " + Lower(reporter) + " " + page
  {
    LowerAppend(volume + " " + reporter + " ", page);
    LowerAppend(volume + " " + reporter, " ");
    LowerAppend(volume + " ", reporter);
    LowerAppend(volume, " ");
    LowerNoUpper(volume);
    LowerNoUpper(page);
    LowerNoUpper(" ");
  }

  /** Digits, spaces and a reporter without "v" make a text without "v". */
  lemma NoVInCaseCitation(volume: string, reporter: string, page: string)
    requires AllDigits(volume) && AllDigits(page) && 'v' !in reporter
    ensures 'v' !in volume + " " + reporter + " " + page
  {
    var c := volume + " " + reporter + " " + page;
    forall k | 0 <= k < |c| ensures c[k] != 'v' {
      if k < |volume| {
        assert c[k] == volume[k];
      } else if k == |volume| || k == |volume| + 1 + |reporter| {
      } else if k < |volume| + 1 + |reporter| {
        assert c[k] == reporter[k - |volume| - 1];
      } else {
        assert c[k] == page[k - |volume| - 2 - |reporter|];
      }
    }
  }

  /** A "p1 v. p2" citation without digits, in any letter case, matches a
      search result exactly when both party names, lower-cased and each longer
      than two letters, occur in the result's lower-cased serialization. */
  lemma CitationMatchesByParties(citation: string, p1: string, sep: string, p2: string, tail: string, r: CaseRecord)
    requires Lower(citation) == p1 + sep + p2 + tail
    requires AllLowerAlpha(p1) && |p1| > 2 && AllLowerAlpha(p2) && |p2| > 2
    requires sep == " v " || sep == " v. "
    requires tail == [] || !IsLowerAlpha(tail[0])
    requires forall k :: 0 <= k < |tail| ==> !IsDigit(tail[k])
    ensures var text := Lower(r.serialized);
      CitationMatches(citation, r) <==> Contains(text, p1) && Contains(text, p2)
  {
    var c := p1 + sep + p2 + tail;
    forall k | 0 <= k < |c| ensures !IsDigit(c[k]) {
      if k < |p1| {
        assert c[k] == p1[k];
      } else if k < |p1| + |sep| {
        assert c[k] == sep[k - |p1|];
      } else if k < |p1| + |sep| + |p2| {
        assert c[k] == p2[k - |p1| - |sep|];
      } else {
        assert c[k] == tail[k - |p1| - |sep| - |p2|];
      }
    }
    Patterns.NoFederalWithoutDigits(c);
    Patterns.PartyFindsNames(p1, sep, p2, tail, 1);
  }

  /** A "p1 v. p2" case name whose parties have at least three letters matches
      a result name exactly when both parties occur in it. */
  lemma NamesMatchByParties(p1: string, sep: string, p2: string, tail: string, resultName: string)
    requires AllLowerAlpha(p1) && |p1| >= 3 && AllLowerAlpha(p2) && |p2| >= 3
    requires sep == " v " || sep == " v. "
    requires tail == [] || !IsLowerAlpha(tail[0])
    ensures NamesMatch(p1 + sep + p2 + tail, resultName) <==> Contains(resultName, p1) && Contains(resultName, p2)
  {
    Patterns.PartyFindsNames(p1, sep, p2, tail, 3);
  }

  /** `w1` and `w2` occur both in `citation` and in `text`, and are either
      two digit groups or two words of more than two letters. */
  predicate SharedPieces(citation: string, text: string, w1: string, w2: string) {
    && Contains(citation, w1) && Contains(citation, w2)
    && Contains(text, w1) && Contains(text, w2)
    && (|| (|w1| > 0 && AllDigits(w1) && |w2| > 0 && AllDigits(w2))
        || (|w1| > 2 && AllLowerAlpha(w1) && |w2| > 2 && AllLowerAlpha(w2)))
  }

  /** A search result is accepted only on evidence taken from the citation:
      two digit groups of it (volume and page), or two of its words longer than
      two letters (the parties), occur in the result's lower-cased serialization. */
  lemma CitationMatchesNeedsEvidence(citation: string, r: CaseRecord)
    ensures CitationMatches(citation, r) ==>
      exists w1, w2 :: SharedPieces(Lower(citation), Lower(r.serialized), w1, w2)
  {
    var c := Lower(citation);
    var text := Lower(r.serialized);
    if CitationMatches(citation, r) {
      var federal := Patterns.FederalSearch(c);
      if federal.Some? && Contains(text, federal.value.0) && Contains(text, federal.value.1) {
        Patterns.FederalSearchOccurs(c);
        assert SharedPieces(c, text, federal.value.0, federal.value.1);
      } else {
        var party := Patterns.PartySearch(c, 1);
        Patterns.PartySearchOccurs(c, 1);
        assert SharedPieces(c, text, party.value.0, party.value.1);
      }
    }
  }

  /** A result whose serialization contains the whole lower-cased citation is
      accepted, provided the citation has the reporter shape or the shape of
      two parties longer than two letters. */
  lemma CitationMatchesWhole(citation: string, r: CaseRecord)
    requires Contains(Lower(r.serialized), Lower(citation))
    requires
      || Patterns.FederalSearch(Lower(citation)).Some?
      || (var party := Patterns.PartySearch(Lower(citation), 1);
          party.Some? && |party.value.0| > 2 && |party.value.1| > 2)
    ensures CitationMatches(citation, r)
  {
    var c := Lower(citation);
    var text := Lower(r.serialized);
    var federal := Patterns.FederalSearch(c);
    if federal.Some? {
      Patterns.FederalSearchOccurs(c);
      ContainsTrans(text, c, federal.value.0);
      ContainsTrans(text, c, federal.value.1);
    } else {
      var party := Patterns.PartySearch(c, 1);
      Patterns.PartySearchOccurs(c, 1);
      ContainsTrans(text, c, party.value.0);
      ContainsTrans(text, c, party.value.1);
    }
  }

  /** A result name is accepted only when it contains the whole query, or
      two of the query's words of at least three letters. */
  lemma NamesMatchNeedsEvidence(query: string, resultName: string)
    ensures NamesMatch(query, resultName) ==>
      || Contains(resultName, query)
      || exists w1, w2 :: |w1| >= 3 && |w2| >= 3 && SharedPieces(query, resultName, w1, w2)
  {
    var party := Patterns.PartySearch(query, 3);
    if NamesMatch(query, resultName) && party.Some? {
      Patterns.PartySearchOccurs(query, 3);
      assert SharedPieces(query, resultName, party.value.0, party.value.1);
    }
  }

  /** A result name that contains the whole query is always accepted. */
  lemma NamesMatchContained(query: string, resultName: string)
    requires Contains(resultName, query)
    ensures NamesMatch(query, resultName)
  {
    var party := Patterns.PartySearch(query, 3);
    if party.Some? {
      Patterns.PartySearchOccurs(query, 3);
      ContainsTrans(resultName, query, party.value.0);
      ContainsTrans(resultName, query, party.value.1);
    }
  }

  /** A case name without the letter "v" matches a result name exactly when it
      occurs in it whole. */
  lemma NamesMatchWhole(query: string, resultName: string)
    requires 'v' !in query
    ensures NamesMatch(query, resultName) <==> Contains(resultName, query)
  {
    Patterns.NoPartyWithoutV(query, 3);
  }

  /** Verifying a citation twice returns the first record, leaves the cache as
      the first call left it and sends no query the second time, whatever the
      database answers by then. */
  lemma VerifyCitationIdempotent(db: Database, db': Database, cache: Cache, citation: string)
    ensures var first := VerifyCitation(db, cache, citation);
      var second := VerifyCitation(db', first.cache, citation);
      second.record == first.record && second.cache == first.cache && second.queries == []
  {
  }

  /** Verifying a case name twice returns the first record, leaves the cache as
      the first call left it and sends no query the second time. */
  lemma VerifyCaseNameIdempotent(db: Database, db': Database, cache: Cache, name: string)
    ensures var first := VerifyCaseName(db, cache, name);
      var second := VerifyCaseName(db', first.cache, name);
      second.record == first.record && second.cache == first.cache && second.queries == []
  {
  }

  /** The two key spaces share the cache: once a case name has been checked,
      the citation "name:" followed by that name is answered with the name's
      record, a case-name result, without any query. */
  lemma NameSlotAnswersCitation(db: Database, db': Database, cache: Cache, name: string)
    requires NameKey(name) !in cache
    ensures var first := VerifyCaseName(db, cache, name);
      var second := VerifyCitation(db', first.cache, "name:" + name);
      second.record == first.record && second.record.NameVerification? && second.queries == []
  {
  }

  /** Any other citation has a slot of its own. */
  lemma CitationSlotsDistinct(citation: string, name: string)
    requires !("name:" <= citation)
    ensures CitationKey(citation) != NameKey(name)
  {
  }
}
